=== FILE: README.md ===
# yt-cc-dl caption tooling, modelled in Dafny

yt-cc-dl is a set of Python scripts that download YouTube subtitles with
yt-dlp and turn them into plain-text transcripts. This project models the
pure text processing in those scripts and proves properties of it.

- **Caption-to-sentence segmenter** (`vtt_to_text` in dl_cc.py), module `Segmenter`.
  It is a left fold over the lines of a subtitle file. The state holds:
  - the units emitted so far;
  - the current sentence buffer;
  - a reference cue start time in milliseconds;
  - the last accepted text line.

  A line containing `-->` is a cue line. When its start time lies at least
  30000 ms after the reference, it closes the buffer as a unit. Noise lines
  are skipped: empty lines, `WEBVTT…`, lines containing `<`, and whole-line
  `[…]` annotations. A text line equal to the last accepted one is skipped.
  Any other text line is appended to the buffer with one space. Every
  complete sentence (`.`, `?` or `!` followed by whitespace or the end) is
  then cut off the front. Whatever is still buffered at the end becomes the
  last unit, and the units are joined with newlines.
- **Cue times** (`parse_vtt_time`), module `VttTime`. A cue time is read as
  a whole number of milliseconds; any failure is `None`.
- **File names** (`sanitize_filename`, the same in dl_cc.py and
  download_transcripts.py), module `Filenames`.
- **Line cleaner** (`vtt_to_text` in download_transcripts.py), module
  `LineCleaner`. It strips each line and drops empty lines and lines
  containing `-->` or `<`. It drops a line equal to the last kept line and
  joins the rest with newlines. The same module models the `url,title` parse
  of the URL list.
- **Title keyword filter** (`should_filter` and the selection loop of
  filter_vid_infos.py), module `TitleFilter`.

Shared modules:
- `Strings` models Python's `str.isspace` whitespace, `strip`/`lstrip`,
  substring search, one-character `split`, `join` and ASCII `lower`. It also
  defines `NonSpace`, the non-whitespace characters of a text, which states
  "no text is lost".
- `Sequences` provides adjacent-duplicate suppression, filtering by a verdict
  and the subsequence relation.
- `Wrappers` provides `Option`.

Each fold is a function over a `seq<string>` of lines, defined by prefix
recursion: reading one more line is one more step. Each fold is paired with
an independent reference definition:
- for the segmenter, the accepted lines: stripped text lines with adjacent
  repeats removed;
- for the line cleaner, the retained lines with adjacent repeats removed;
- for the filter, a per-line verdict.

Lemmas connect each fold to its reference definition.

## Model

| member | source | states |
|---|---|---|
| `Strings.IsSpace` | dl_cc.py:34 | the `str.isspace` table that `strip`, `lstrip` and the regex `\s` share: space, tab to carriage return, the file, group, record and unit separators, NEL, no-break space, and the Unicode space, line and paragraph separators; a definition that the strip lemmas build on |
| `Strings.Strip` | dl_cc.py:34 | `str.strip()`: the result has no whitespace at either end and is no longer than the input |
| `Strings.StripBounds` | dl_cc.py:34 | what `strip` removes is a whitespace prefix and a whitespace suffix; the rest is kept verbatim |
| `Strings.LStrip` | dl_cc.py:69 | `str.lstrip()`: the result does not start with whitespace |
| `Strings.LStripBounds` | dl_cc.py:69 | what `lstrip` removes is a whitespace prefix; the rest is kept verbatim as a suffix of the input |
| `Strings.StripKeepsText` | dl_cc.py:68 | stripping removes whitespace only |
| `Strings.StripTail` | dl_cc.py:68 | stripping a text whose last non-whitespace character is at `i` keeps exactly the characters up to `i` after the leading whitespace, and everything it drops from the front is whitespace |
| `Strings.Contains` | dl_cc.py:37 | the `in` test on strings, as also used for the keywords of filter_vid_infos.py: `pat` occurs somewhere in `s`; a definition whose meaning `ContainsOccurs` and `ContainsMiddle` state |
| `Strings.ContainsOccurs` | dl_cc.py:37 | `pat in s` holds exactly when `pat` occurs at some index of `s` |
| `Strings.ContainsMiddle` | filter_vid_infos.py:7 | a text with `pat` in the middle contains `pat` |
| `Strings.Before` | dl_cc.py:38 | `s.split(pat)[0]` is no longer than `s`; `BeforeFirstOccurrence` states that it is the text before the first `pat` |
| `Strings.BeforeFirstOccurrence` | dl_cc.py:38 | `s.split(pat)[0]` is a prefix of `s`; `pat` occurs right after it and nowhere earlier; it is all of `s` when `pat` is absent |
| `Strings.AfterFirstRest` | filter_vid_infos.py:21 | `s.split(pat, 1)[-1]`: `s` is the text before the first `pat`, then `pat`, then the result; without `pat` it is all of `s` |
| `Strings.AfterFirst` | filter_vid_infos.py:21 | `s.split(pat, 1)[-1]` is no longer than `s`; `AfterFirstRest` states that it is the text after the first `pat` |
| `Strings.SplitOn` | dl_cc.py:20-21 | a one-character `split` yields one more field than there are separators |
| `Strings.SplitOnJoin` | dl_cc.py:20-21 | joining the fields of a one-character `split` with that character restores the text |
| `Strings.SplitOnFieldsLackSep` | download_transcripts.py:75 | no field of a one-character `split` contains the separator |
| `Strings.Join` | dl_cc.py:75 | `sep.join(parts)`: the parts with the separator between neighbours; `SplitOnJoin`, `JoinSnoc` and `JoinKeepsText` state its properties |
| `Strings.Lower` | filter_vid_infos.py:6 | the ASCII model of `str.lower()` keeps the length of the title |
| `Strings.LowerAt` | filter_vid_infos.py:6 | the ASCII model of `str.lower()` maps every character on its own, in place: ASCII capitals to small letters, every other character unchanged |
| `Filenames.ReplaceForbidden` | dl_cc.py:17 | same length; each of backslash, slash, `*`, `?`, `:`, `"`, `<`, `>` and the pipe becomes `_`; every other character is unchanged |
| `Filenames.SanitizeFilename` | dl_cc.py:16-17 | the name contains none of the forbidden characters, has no surrounding whitespace, and loses no non-whitespace character of the substituted title |
| `Filenames.ReplacedIsSafe` | dl_cc.py:17 | after the substitution no forbidden character is left |
| `Filenames.StripKeepsSafe` | dl_cc.py:17 | the strip after the substitution brings no forbidden character back |
| `Filenames.SafeNameUnchanged` | download_transcripts.py:27-29 | a stripped name without forbidden characters is returned verbatim |
| `Filenames.SanitizeIdempotent` | download_transcripts.py:27-29 | sanitizing a sanitized name changes nothing |
| `VttTime.ParseInt` | dl_cc.py:22 | `int()` succeeds exactly on a decimal digit string of one to 4300 digits, leading zeros included |
| `VttTime.ParseVttTime` | dl_cc.py:19-22 | a parsed time is below `timedelta`'s limit of 10^9 days; a time without exactly two `:` fails |
| `VttTime.TotalMs` | dl_cc.py:22 | the `timedelta(hours=h, minutes=m, seconds=s, milliseconds=ms)` construction as a whole number of milliseconds: an hour is 3600000, a minute 60000, a second 1000; `ParseFields` and `ClockFields` state its use |
| `VttTime.ParseFields` | dl_cc.py:19-22 | digit fields `h:m:s.ms` of at most 4300 digits each denote h·3600000 + m·60000 + s·1000 + ms milliseconds unless that overflows `timedelta`; a longer field fails |
| `VttTime.ParsedShape` | dl_cc.py:20-21 | conversely, every accepted time is four digit fields `h:m:s.ms` that `int()` accepts |
| `VttTime.FormatRoundTrip` | dl_cc.py:19-22 | every time in range written as `HH:MM:SS.mmm` is read back as the same number of milliseconds |
| `Segmenter.IsCueLine` | dl_cc.py:37 | a line whose stripped text contains `-->`; `CueStartIgnoresEnd` and `AcceptedLinesAreText` state what it separates |
| `Segmenter.IsTextLine` | dl_cc.py:37-55 | a line that is neither a cue line nor skipped by the two `continue` tests, so it reaches the duplicate check of dl_cc.py:58-59; `CandidatesAreText` and `AcceptedLinesAreText` state what such a line is |
| `Segmenter.IsBracketed` | dl_cc.py:54-55 | the anchored match `^\[.*\]$` on a stripped line: `[` first, `]` last, no line break between; the properties of the skip are stated by `NoiseLineIgnored` and `AcceptedLinesAreText` |
| `Segmenter.IsNoise` | dl_cc.py:52-55 | the two `continue` tests for a non-cue line; `NoiseLineIgnored` states that such a line changes nothing |
| `Segmenter.CueStart` | dl_cc.py:37-42 | the start time of a cue line, `None` where parsing raises; `CueStartIgnoresEnd` states what it reads |
| `Segmenter.CueStartIgnoresEnd` | dl_cc.py:37-38 | a stripped `start-->rest` line is a cue line, and its time is read from `start` alone; whatever follows `-->` is ignored |
| `Segmenter.IsTerminal` | dl_cc.py:64 | the character class `[.?!]` of the search |
| `Segmenter.CutsAt` | dl_cc.py:64 | the search pattern matches at index `i`: a terminal mark followed by whitespace or the end of the buffer; `FindCut` and `FindCutLeftmost` state the search for it |
| `Segmenter.FindCut` | dl_cc.py:64 | a returned index is a match: a terminal mark followed by whitespace or the end |
| `Segmenter.FindCutLeftmost` | dl_cc.py:64 | there is no match before the returned index, and none at all when it returns `None`: the leftmost match, as `re.search` finds it |
| `Segmenter.CutEnd` | dl_cc.py:64-67 | `\s+` greedily takes the whole whitespace run after the mark: the match ends past the mark, at the end or before a non-whitespace character |
| `Segmenter.CutSentence` | dl_cc.py:68 | what a cut emits: the buffer up to the end of the match, stripped; `CutSentenceEnds` and `CutSentenceOnce` state its shape |
| `Segmenter.CutRest` | dl_cc.py:69 | what a cut leaves: the rest of the buffer, left-stripped, strictly shorter than the buffer, so the loop ends |
| `Segmenter.CutSentenceEnds` | dl_cc.py:67-68 | an emitted sentence is non-empty and ends in the mark it was cut at |
| `Segmenter.CutSentenceOnce` | dl_cc.py:64-68 | the sentence cut at the leftmost match holds no other match: two sentences are never emitted as one unit |
| `Segmenter.CutKeepsText` | dl_cc.py:67-69 | a cut loses no text between the emitted sentence and the rest |
| `Segmenter.CutRestStripped` | dl_cc.py:69 | the rest of a stripped buffer stays stripped |
| `Segmenter.CutExact` | dl_cc.py:67-69 | on a stripped buffer a cut emits exactly the buffer up to and including the mark, skips only whitespace, and leaves the buffer from the next non-whitespace character on, untouched |
| `Segmenter.SplitExact` | dl_cc.py:63-70 | on a stripped buffer the loop drops nothing but whitespace: the buffer is the first sentence, a run of whitespace, the second sentence, a run of whitespace, and so on, then the final buffer; every run is non-empty except the last one when nothing is left after it |
| `Segmenter.SplitSentences` | dl_cc.py:63-70 | when the loop emits nothing, the buffer is unchanged |
| `Segmenter.SentencesEndInMarks` | dl_cc.py:63-70 | every unit the split loop emits is exactly one sentence: non-empty, stripped, ending in `.`, `?` or `!`, with no other match inside |
| `Segmenter.SplitLeavesNoCut` | dl_cc.py:63-70 | after the loop the buffer has no mark followed by whitespace or the end; a stripped buffer stays stripped; the loop emits something exactly when there was a match |
| `Segmenter.SplitKeepsText` | dl_cc.py:63-70 | the emitted sentences and the rest together hold exactly the buffer's text |
| `Segmenter.Joined` | dl_cc.py:62 | the buffer with a line appended after one space, or the line alone when the buffer is empty; `JoinedStripped` and `JoinedText` state its properties |
| `Segmenter.JoinedStripped` | dl_cc.py:62 | joining a stripped line to a stripped buffer with one space gives a stripped buffer |
| `Segmenter.JoinedText` | dl_cc.py:62 | the joined buffer holds the buffer's text followed by the line's text |
| `Segmenter.CueStep` | dl_cc.py:43-50 | the cue branch: flush on a gap with text buffered, or set the first reference; its properties are stated by `CueStepInvariant`, `GapClosesUnit`, `FirstCueSetsReference` and `NoGapNoBoundary` |
| `Segmenter.TextStep` | dl_cc.py:60-70 | an accepted line: append and split; its properties are stated by `TextStepValid`, `TextStepText`, `TextStepShape` and `TextStepSentences` |
| `Segmenter.Step` | dl_cc.py:33-70 | one iteration of the `for` loop; its properties are stated by `StepExtendsUnits`, `TextLineStep` and `CueStepKeepsLast` |
| `Segmenter.Process` | dl_cc.py:28-70 | the state after the loop has read a prefix of the lines; `ProcessInvariant` states its invariant |
| `Segmenter.Units` | dl_cc.py:72-73 | the emitted units plus the stripped leftover buffer when it is not empty; `UnitsWellFormed` states their shape |
| `Segmenter.VttToText` | dl_cc.py:24-75 | the whole conversion; `NoTextLoss` and `UnitsWellFormed` state what its output holds |
| `Segmenter.TextStepValid` | dl_cc.py:62-70 | an accepted line keeps the buffer stripped and free of complete sentences, and every unit non-empty and stripped |
| `Segmenter.TextStepText` | dl_cc.py:62-70 | an accepted line adds exactly its own text to the state |
| `Segmenter.CueStepInvariant` | dl_cc.py:43-50 | a cue line keeps the state well formed, adds and loses no text, and leaves `last_line` alone |
| `Segmenter.NotAcceptedStep` | dl_cc.py:37-59 | a cue line, a noise line or a repeat keeps the loop invariant without adding an accepted line |
| `Segmenter.TextLineStep` | dl_cc.py:57-62 | a text line that differs from `last_line` goes to the sentence splitter stripped |
| `Segmenter.AcceptedLinesSnoc` | dl_cc.py:57-60 | a text line that differs from the last accepted line is appended to the accepted lines |
| `Segmenter.AcceptedStep` | dl_cc.py:57-70 | reading an accepted line keeps the loop invariant |
| `Segmenter.ProcessInvariant` | dl_cc.py:28-70 | after any prefix of the input, the state is well formed, `last_line` is the last accepted line, and the emitted plus buffered text is exactly the text of the accepted lines |
| `Segmenter.NoTextLoss` | dl_cc.py:24-75 | the output's non-whitespace characters are exactly those of the accepted lines, in order |
| `Segmenter.DefaultVttToText` | dl_cc.py:24-75 | the conversion with the script's gap of half a minute (dl_cc.py:44) loses and invents no text: its non-whitespace characters are exactly those of the accepted lines |
| `Segmenter.UnitsWellFormed` | dl_cc.py:62-75 | every output unit is non-empty with no surrounding whitespace; a non-empty leftover buffer is the last unit |
| `Segmenter.CandidatesAreText` | dl_cc.py:37-55 | every line that reaches the duplicate check is a stripped text line |
| `Segmenter.AcceptedLinesAreText` | dl_cc.py:37-60 | an accepted line is never a cue line, empty, a `WEBVTT` header, a line with `<` or a bracketed annotation; no two consecutive accepted lines are equal |
| `Segmenter.NoiseLineIgnored` | dl_cc.py:52-55 | a noise line leaves the state unchanged |
| `Segmenter.RepeatIgnored` | dl_cc.py:57-59 | a text line equal to the last accepted line leaves the state unchanged |
| `Segmenter.CueStepKeepsLast` | dl_cc.py:37-50 | a cue line never changes `last_line` |
| `Segmenter.CueLinesKeepLastFrom` | dl_cc.py:37-50 | when every line after the first `n` is a cue line, `last_line` is what it was after those `n` |
| `Segmenter.CueLinesKeepLast` | dl_cc.py:37-50 | cue lines never change `last_line` |
| `Segmenter.TextLineIsLast` | dl_cc.py:57-60 | after a text line, `last_line` is that line |
| `Segmenter.RepeatAcrossCuesIgnored` | dl_cc.py:50-60 | a text line repeated after any run of cue lines is dropped |
| `Segmenter.MalformedCueIgnored` | dl_cc.py:39-50 | a cue line whose start time does not parse leaves the buffer, the reference time and everything else unchanged |
| `Segmenter.FirstCueSetsReference` | dl_cc.py:48-49 | without a reference, the first parsed cue start becomes the reference and nothing else changes |
| `Segmenter.GapClosesUnit` | dl_cc.py:43-47 | a cue starting at least the gap after the reference, with text buffered, emits the buffer as one unit, empties it, and makes its own start the reference |
| `Segmenter.NoGapNoBoundary` | dl_cc.py:43-50 | with a reference set, a cue that is too close, unparsable or has nothing to flush changes nothing |
| `Segmenter.TextStepShape` | dl_cc.py:62-70 | an accepted line only appends units, and clears the reference exactly when it appends one |
| `Segmenter.TextStepSentences` | dl_cc.py:63-70 | the units an accepted line appends are each one sentence, and none is left in the buffer |
| `Segmenter.AcceptedLineCutsSentences` | dl_cc.py:58-70 | reading an accepted line appends only single sentences, leaves no complete sentence buffered, resets the reference exactly when it cut one, and records the line as `last_line` |
| `Segmenter.CueStepExtends` | dl_cc.py:43-47 | a cue line only ever appends a unit |
| `Segmenter.StepExtendsUnits` | dl_cc.py:33-70 | no iteration revises an emitted unit |
| `Segmenter.UnitsPrefix` | dl_cc.py:33-70 | the units after the first `n` lines are a prefix of the units after all of them |
| `Segmenter.UnitsOnlyGrow` | dl_cc.py:33-70 | reading more lines only appends units |
| `Sequences.DedupAdjacent` | download_transcripts.py:15-23 | the result ends with the input's last element and is no longer than the input |
| `Sequences.DedupNoAdjacent` | download_transcripts.py:20-23 | no two adjacent elements of the result are equal |
| `Sequences.DedupSnoc` | download_transcripts.py:20-23 | one more element is kept exactly when it differs from the last element kept so far |
| `Sequences.DedupAppend` | download_transcripts.py:20-23 | an element is dropped exactly when it equals the last element kept |
| `Sequences.DedupNoDuplicates` | download_transcripts.py:20-23 | a sequence without adjacent repeats is left as it is |
| `Sequences.DedupSubsequence` | download_transcripts.py:20-23 | suppression only deletes |
| `Sequences.DedupSameElements` | download_transcripts.py:20-23 | suppression keeps every distinct element that occurs |
| `Sequences.Filter` | filter_vid_infos.py:13-23 | selection by a verdict is no longer than its input |
| `Sequences.FilterSnoc` | filter_vid_infos.py:22-23 | one more element is appended exactly when the verdict keeps it |
| `Sequences.FilterAppend` | filter_vid_infos.py:13-23 | each element is judged on its own: selection distributes over concatenation |
| `Sequences.FilterSubsequence` | filter_vid_infos.py:13-23 | selection only deletes |
| `Sequences.FilterMembers` | filter_vid_infos.py:13-23 | an element is selected exactly when it is in the input and kept |
| `Sequences.FilterAllKept` | filter_vid_infos.py:13-23 | a sequence whose elements are all kept passes unchanged |
| `Sequences.FilterIdempotent` | filter_vid_infos.py:13-23 | selecting twice with the same verdict is selecting once |
| `LineCleaner.Passes` | download_transcripts.py:18-19 | the filter on a stripped line; `CleanMembers` states which lines it lets through |
| `LineCleaner.Retained` | download_transcripts.py:16-19 | the stripped lines that pass the filter; `RetainedPassFilter` states their shape |
| `LineCleaner.Clean` | download_transcripts.py:14-23 | the retained lines without adjacent repeats; `CleanStep`, `CleanIsSubsequence` and `CleanMembers` state what it keeps |
| `LineCleaner.StripAll` | download_transcripts.py:17 | one stripped line per input line |
| `LineCleaner.StripAllAt` | download_transcripts.py:17 | each stripped line sits at the index of its input line |
| `LineCleaner.StripAllStripped` | download_transcripts.py:17 | lines that are already stripped are left as they are |
| `LineCleaner.CleanStep` | download_transcripts.py:16-23 | a line is dropped exactly when it fails the filter or equals the last kept line; otherwise it is appended stripped |
| `LineCleaner.Kept` | download_transcripts.py:14-23 | the lines the loop has kept after each prefix of the input, one `continue` test per line; `KeptIsClean` equates it with `Clean` |
| `LineCleaner.KeptIsClean` | download_transcripts.py:14-23 | the loop's `continue` conditions, applied line by line, keep exactly the retained lines without adjacent repeats |
| `LineCleaner.VttToText` | download_transcripts.py:10-25 | the loop with `last_line` produces the newline join of the cleaned lines |
| `LineCleaner.RetainedPassFilter` | download_transcripts.py:17-19 | every kept line is stripped and passes the filter |
| `LineCleaner.CleanIsSubsequence` | download_transcripts.py:14-23 | the output is a subsequence of the stripped input, has no adjacent duplicates, and is no longer than the input |
| `LineCleaner.CleanMembers` | download_transcripts.py:16-23 | nothing else is removed: a line is in the output exactly when it is a stripped input line passing the filter |
| `LineCleaner.RetainedOfClean` | download_transcripts.py:16-22 | already-clean lines pass the filter unchanged |
| `LineCleaner.CleanIdempotent` | download_transcripts.py:16-23 | cleaning the cleaned lines changes nothing |
| `LineCleaner.CleanPrefix` | download_transcripts.py:16-23 | the lines kept from the first `n` input lines are a prefix of those kept from all of them |
| `LineCleaner.CleanOnlyGrows` | download_transcripts.py:16-23 | lines kept so far are never revised by later input |
| `LineCleaner.HeaderSurvives` | download_transcripts.py:18-23 | a leading `WEBVTT` header is the first output line |
| `LineCleaner.ParseListLine` | download_transcripts.py:75-79 | a list line is accepted exactly when its stripped text has one comma |
| `LineCleaner.ListLineShape` | download_transcripts.py:75-79 | an accepted line is url, comma, title, and neither part contains a comma |
| `LineCleaner.ListLineRoundTrip` | download_transcripts.py:75-79 | a comma-free url and title joined by a comma are read back as they are |
| `TitleFilter.AnyIn` | filter_vid_infos.py:7 | `any(k in s for k in keys)` holds exactly when some key occurs in `s` |
| `TitleFilter.ShouldFilter` | filter_vid_infos.py:3-7 | false for a missing or empty title; otherwise true exactly when the lowercased title contains one of the keywords |
| `TitleFilter.KeywordsLower` | filter_vid_infos.py:1 | each keyword is its own lowercase |
| `TitleFilter.LowerAround` | filter_vid_infos.py:6 | lowercasing a title around an already lowercase part keeps that part in place |
| `TitleFilter.KeywordFiltered` | filter_vid_infos.py:1-7 | a title containing one of `(teaser)`, `(re-up)`, `(reup)` is filtered |
| `TitleFilter.CaseInsensitive` | filter_vid_infos.py:6-7 | a title and its lowercase get the same verdict |
| `TitleFilter.ExtractTitle` | filter_vid_infos.py:16-21 | there is a title exactly when the line contains a pipe, and it has no surrounding whitespace |
| `TitleFilter.ExtractTitleOf` | filter_vid_infos.py:19-21 | in `idx.title`, pipe, `url`, with no `.` in `idx` and no pipe before the separator, the title is `title`, stripped |
| `TitleFilter.ExtractTitleUnnumbered` | filter_vid_infos.py:19-21 | with no `.` before the first pipe, the whole segment before it, stripped, is the title |
| `TitleFilter.Keep` | filter_vid_infos.py:16-23 | the loop body's verdict on one line; `NoPipeDropped` and `KeptMembers` state it |
| `TitleFilter.NoPipeDropped` | filter_vid_infos.py:16-18 | a line without a pipe is never kept |
| `TitleFilter.FilterVidInfos` | filter_vid_infos.py:13-23 | the selection loop; `FilterVidInfosAppend`, `KeptSubsequence`, `KeptMembers` and `FilterVidInfosIdempotent` state what it keeps |
| `TitleFilter.FilterVidInfosAppend` | filter_vid_infos.py:13-23 | each line is judged on its own: the selection distributes over concatenation |
| `TitleFilter.KeptSubsequence` | filter_vid_infos.py:13-23 | kept lines are input lines, verbatim and in their original order |
| `TitleFilter.KeptMembers` | filter_vid_infos.py:13-23 | a line is in the output exactly when it is an input line the verdict keeps |
| `TitleFilter.FilterVidInfosIdempotent` | filter_vid_infos.py:13-23 | filtering the filtered list changes nothing |

## Left out

- File reads and writes, yt-dlp subprocess calls, `os.remove`, `os.makedirs` and existence checks in all three scripts. The models take the lines of a file as a parameter and return text or lines.
- dl_vid_infos.py: it only wraps the `yt_dlp` library and network fetches.
- The configparser globals of dl_cc.py. The gap is a parameter of `Segmenter.Process`; the script's half minute (dl_cc.py:44) is `Segmenter.DefaultGapMs`, used by `Segmenter.DefaultVttToText`.
- The `vi`-then-`en` language fallback of dl_cc.py. It depends on the outcome of external processes.
- `timedelta` is a whole number of milliseconds. A parsed time of 10^9 days or more raises OverflowError inside the `try` of dl_cc.py:39-42, and is modelled as a failed parse.
- Segmenter.CueStep: the subtraction `cur_time - sentence_start_time` (dl_cc.py:44) stands outside the `try`. When a cue starts more than 999999999 days before the reference, the difference is below `timedelta`'s minimum and Python raises an uncaught OverflowError that ends `vtt_to_text`. The model treats such a cue as one without a gap and carries on. An example input is a cue at `23999999976:00:00.001` followed by a cue at `00:00:00.000`.
- Segmenter.NoGapNoBoundary: for the same reason, it states that such a far-backward cue changes nothing, where the script aborts instead.
- `VttTime.ParseInt`: models `int()` on ASCII decimal digits only, with the default limit of 4300 digits of Python 3.11 and later (leading zeros count). Python also accepts a sign, surrounding whitespace, `_` separators and non-ASCII digits. A time using them parses in Python but is `None` here.
- `Strings.Lower`: lowercases ASCII letters only; Python's `str.lower` maps every Unicode letter, and for a few (`İ` becomes two characters) changes the length.
- `Strings.LowerAt`: for the same reason, a non-ASCII capital is kept as it is here, where Python lowercases it.
- The regular-expression engine: `\s` and `str.strip` share one whitespace predicate, the `str.isspace` table. The search `([.?!])(\s+|$)` and the match `^\[.*\]$` are written out as predicates over the stripped text.
- Line breaks: `readlines` keeps each line's trailing line break. The models take the lines as `readlines` gives them. A line break is whitespace, and every consumer in dl_cc.py and download_transcripts.py strips the line before looking at it. The title filter keeps its lines verbatim, line break included.

=== FILE: filenames.dfy ===
/**
  `sanitize_filename`, identical in dl_cc.py and download_transcripts.py:
  each of backslash, slash, star, `?`, `:`, `"`, `<`, `>` and the pipe
  becomes `_`, then the result is stripped.
*/
module Filenames {
  import opened Strings

  /** Characters that may not appear in an output file name. */
  predicate IsForbidden(c: char) {
    c in "\\/*?:\"<>|"
  }

  /** The regular-expression substitution of `sanitize_filename`: each character
      of the forbidden class becomes an underscore. */
  function ReplaceForbidden(title: string): (r: string)
    ensures |r| == |title|
    ensures forall i :: 0 <= i < |title| && IsForbidden(title[i]) ==> r[i] == '_'
    ensures forall i :: 0 <= i < |title| && !IsForbidden(title[i]) ==> r[i] == title[i]
    decreases |title|
  {
    if title == [] then []
    else
      var c := title[|title| - 1];
      ReplaceForbidden(title[..|title| - 1]) + [if IsForbidden(c) then '_' else c]
  }

  /** `sanitize_filename(title)`. */
  function SanitizeFilename(title: string): (r: string)
    ensures forall i :: 0 <= i < |r| ==> !IsForbidden(r[i])
    ensures IsStripped(r)
    ensures NonSpace(r) == NonSpace(ReplaceForbidden(title))
  {
    var replaced := ReplaceForbidden(title);
    ReplacedIsSafe(title);
    StripKeepsSafe(replaced);
    StripKeepsText(replaced);
    Strip(replaced)
  }

  /** After the substitution no forbidden character is left. */
  lemma ReplacedIsSafe(title: string)
    ensures forall i :: 0 <= i < |ReplaceForbidden(title)| ==> !IsForbidden(ReplaceForbidden(title)[i])
  {
    var r := ReplaceForbidden(title);
    forall i | 0 <= i < |r| ensures !IsForbidden(r[i]) {
      if IsForbidden(title[i]) {
        assert r[i] == '_';
      }
    }
  }

  /** Stripping a string free of forbidden characters leaves it free of them:
      every character of the result is a character of the input. */
  lemma StripKeepsSafe(s: string)
    requires forall i :: 0 <= i < |s| ==> !IsForbidden(s[i])
    ensures forall j :: 0 <= j < |Strip(s)| ==> !IsForbidden(Strip(s)[j])
  {
    var r := Strip(s);
    var b, e := StripBounds(s);
    forall j | 0 <= j < |r| ensures !IsForbidden(r[j]) {
      assert r[j] == s[b + j];
    }
  }

  /** Sanitizing a sanitized name changes nothing. */
  lemma SanitizeIdempotent(title: string)
    ensures SanitizeFilename(SanitizeFilename(title)) == SanitizeFilename(title)
  {
    var r := SanitizeFilename(title);
    SafeNameUnchanged(r);
  }

  /** A name that is already stripped and free of forbidden characters is kept verbatim. */
  lemma SafeNameUnchanged(title: string)
    requires forall i :: 0 <= i < |title| ==> !IsForbidden(title[i])
    requires IsStripped(title)
    ensures SanitizeFilename(title) == title
  {
    assert ReplaceForbidden(title) == title;
    StripStripped(title);
  }
}

=== FILE: line_cleaner.dfy ===
/**
  The older caption cleaner of download_transcripts.py (`vtt_to_text` after the
  file read) and the parse of one line of the URL list in its `main`.

  The cleaner strips every line, drops the empty ones and those containing
  `-->` or `<`, drops a line equal to the last line kept, and joins what is
  left with newlines. Nothing else is removed: a `WEBVTT` header or a
  bracketed annotation survives.
*/
module LineCleaner {
  import opened Wrappers
  import opened Strings
  import opened Sequences

  /** The filter of line 18, on a stripped line: the line is kept unless it is
      empty or contains `-->` or `<`. */
  predicate Passes(line: string) {
    line != [] && !Contains(line, "-->") && '<' !in line
  }

  /** Every line, stripped. */
  function StripAll(lines: seq<string>): (r: seq<string>)
    ensures |r| == |lines|
    decreases |lines|
  {
    if |lines| == 0 then []
    else StripAll(lines[..|lines| - 1]) + [Strip(lines[|lines| - 1])]
  }

  /** Each line of `StripAll` is the stripped input line at the same index. */
  lemma {:induction false} StripAllAt(lines: seq<string>, k: nat)
    requires k < |lines|
    ensures StripAll(lines)[k] == Strip(lines[k])
    decreases |lines|
  {
    if k < |lines| - 1 {
      StripAllAt(lines[..|lines| - 1], k);
    }
  }

  lemma StripAllSnoc(p: seq<string>, raw: string)
    ensures StripAll(p + [raw]) == StripAll(p) + [Strip(raw)]
  {
    assert (p + [raw])[..|p|] == p;
  }

  /** Lines that are already stripped are left as they are. */
  lemma {:induction false} StripAllStripped(lines: seq<string>)
    requires forall k :: 0 <= k < |lines| ==> IsStripped(lines[k])
    ensures StripAll(lines) == lines
    decreases |lines|
  {
    if |lines| > 0 {
      var p := lines[..|lines| - 1];
      assert forall k :: 0 <= k < |p| ==> p[k] == lines[k];
      StripAllStripped(p);
      StripStripped(lines[|lines| - 1]);
    }
  }

  /** The stripped lines that pass the filter, in order. */
  function Retained(lines: seq<string>): seq<string> {
    Filter(Passes, StripAll(lines))
  }

  /** The lines `vtt_to_text` keeps: the retained lines without adjacent repeats. */
  function Clean(lines: seq<string>): seq<string> {
    DedupAdjacent(Retained(lines))
  }

  /** One more input line: it is dropped exactly when it fails the filter or
      equals the last line kept, and otherwise appended as it stands. */
  lemma CleanStep(p: seq<string>, raw: string)
    ensures !Passes(Strip(raw)) ==> Clean(p + [raw]) == Clean(p)
    ensures Passes(Strip(raw)) && LastOf(Clean(p)) == Some(Strip(raw)) ==>
      Clean(p + [raw]) == Clean(p)
    ensures Passes(Strip(raw)) && LastOf(Clean(p)) != Some(Strip(raw)) ==>
      Clean(p + [raw]) == Clean(p) + [Strip(raw)]
  {
    StripAllSnoc(p, raw);
    FilterSnoc(Passes, StripAll(p), Strip(raw));
    if Passes(Strip(raw)) {
      DedupAppend(Retained(p), Strip(raw));
    }
  }

  /** The lines the loop of `vtt_to_text` has kept after reading `lines`: a
      stripped line is skipped when it is empty or contains `-->` or `<`, or
      when it equals the last line kept, and appended otherwise. */
  function Kept(lines: seq<string>): seq<string>
    decreases |lines|
  {
    if |lines| == 0 then []
    else
      var kept, line := Kept(lines[..|lines| - 1]), Strip(lines[|lines| - 1]);
      if line == [] || Contains(line, "-->") || '<' in line then kept
      else if LastOf(kept) == Some(line) then kept
      else kept + [line]
  }

  /** The loop keeps exactly the retained lines without adjacent repeats. */
  lemma {:induction false} KeptIsClean(lines: seq<string>)
    ensures Kept(lines) == Clean(lines)
    decreases |lines|
  {
    if |lines| == 0 {
      assert StripAll(lines) == [];
    } else {
      var front, raw := lines[..|lines| - 1], lines[|lines| - 1];
      assert lines == front + [raw];
      KeptIsClean(front);
      CleanStep(front, raw);
    }
  }

  /** `vtt_to_text` of download_transcripts.py on the lines of a file. */
  method VttToText(lines: seq<string>) returns (text: string)
    ensures text == Join(Clean(lines), "\n")
  {
    var cleaned: seq<string> := [];
    var last: Option<string> := None;
    var i := 0;
    while i < |lines|
      invariant 0 <= i <= |lines|
      invariant cleaned == Kept(lines[..i])
      invariant last == LastOf(cleaned)
    {
      assert lines[..i + 1][..i] == lines[..i];
      var line := Strip(lines[i]);
      if line == [] || Contains(line, "-->") || '<' in line {
      } else if Some(line) == last {
      } else {
        cleaned := cleaned + [line];
        last := Some(line);
      }
      i := i + 1;
    }
    assert lines[..|lines|] == lines;
    KeptIsClean(lines);
    text := Join(cleaned, "\n");
  }

  /** Kept lines are stripped lines that pass the filter. */
  lemma RetainedPassFilter(lines: seq<string>)
    ensures forall x :: x in Retained(lines) ==> IsStripped(x) && Passes(x)
  {
    forall x | x in Retained(lines) ensures IsStripped(x) && Passes(x) {
      FilterMembers(Passes, StripAll(lines), x);
      var k :| 0 <= k < |StripAll(lines)| && StripAll(lines)[k] == x;
      StripAllAt(lines, k);
    }
  }

  /** The output lines are stripped input lines in their original order, no two
      adjacent ones are equal, and there are no more of them than input lines. */
  lemma CleanIsSubsequence(lines: seq<string>)
    ensures IsSubsequence(Clean(lines), StripAll(lines))
    ensures NoAdjacentDuplicates(Clean(lines))
    ensures |Clean(lines)| <= |lines|
  {
    FilterSubsequence(Passes, StripAll(lines));
    DedupSubsequence(Retained(lines));
    DedupNoAdjacent(Retained(lines));
    SubsequenceTransitive(Clean(lines), Retained(lines), StripAll(lines));
    SubsequenceLength(Clean(lines), StripAll(lines));
  }

  /** A line occurs in the output exactly when some input line strips to it and
      passes the filter: repeats are thinned out, never removed altogether. */
  lemma CleanMembers(lines: seq<string>, x: string)
    ensures x in Clean(lines) <==> x in StripAll(lines) && Passes(x)
  {
    DedupSameElements(Retained(lines), x);
    FilterMembers(Passes, StripAll(lines), x);
  }

  /** Lines that are already clean pass the filter unchanged. */
  lemma RetainedOfClean(lines: seq<string>)
    requires forall k :: 0 <= k < |lines| ==> IsStripped(lines[k]) && Passes(lines[k])
    ensures Retained(lines) == lines
  {
    StripAllStripped(lines);
    FilterAllKept(Passes, lines);
  }

  /** Cleaning cleaned lines changes nothing. */
  lemma CleanIdempotent(lines: seq<string>)
    ensures Clean(Clean(lines)) == Clean(lines)
  {
    var c := Clean(lines);
    RetainedPassFilter(lines);
    forall k | 0 <= k < |c| ensures IsStripped(c[k]) && Passes(c[k]) {
      DedupSameElements(Retained(lines), c[k]);
    }
    RetainedOfClean(c);
    DedupNoAdjacent(Retained(lines));
    DedupNoDuplicates(c);
  }

  /** Reading more lines never revises the lines kept so far: the output for
      the first `n` lines is a prefix of the output for all of them. */
  lemma {:induction false} CleanPrefix(lines: seq<string>, n: nat)
    requires n <= |lines|
    ensures Clean(lines[..n]) <= Clean(lines)
    decreases |lines|
  {
    if n < |lines| {
      var front := lines[..|lines| - 1];
      assert front[..n] == lines[..n];
      assert front + [lines[|lines| - 1]] == lines;
      CleanPrefix(front, n);
      CleanStep(front, lines[|lines| - 1]);
    } else {
      assert lines[..n] == lines;
    }
  }

  /** The same, stated for an input read in two pieces. */
  lemma CleanOnlyGrows(p: seq<string>, q: seq<string>)
    ensures Clean(p) <= Clean(p + q)
  {
    assert (p + q)[..|p|] == p;
    CleanPrefix(p + q, |p|);
  }

  /** Unlike the segmenter, this cleaner keeps the `WEBVTT` header line. */
  lemma HeaderSurvives(rest: seq<string>)
    ensures |Clean(["WEBVTT"] + rest)| > 0 && Clean(["WEBVTT"] + rest)[0] == "WEBVTT"
  {
    var header := "WEBVTT";
    var lines := [header] + rest;
    assert IsStripped(header);
    StripStripped(header);
    LacksFirst(header, "-->");
    CleanStep([], header);
    assert [] + [header] == [header] == lines[..1];
    CleanPrefix(lines, 1);
  }

  /** One line of the URL list, `url,title`: the stripped line split on `,` must
      give exactly two parts. The parts themselves are not stripped. */
  function ParseListLine(line: string): (r: Option<(string, string)>)
    ensures r.Some? <==> Count(Strip(line), ',') == 1
  {
    var parts := SplitOn(Strip(line), ',');
    if |parts| == 2 then Some((parts[0], parts[1])) else None
  }

  /** An accepted line is its url and title around the only comma. */
  lemma ListLineShape(line: string)
    requires ParseListLine(line).Some?
    ensures Strip(line) == ParseListLine(line).value.0 + "," + ParseListLine(line).value.1
    ensures ',' !in ParseListLine(line).value.0 && ',' !in ParseListLine(line).value.1
  {
    var parts := SplitOn(Strip(line), ',');
    SplitOnTwo(Strip(line), ',');
    SplitOnFieldsLackSep(Strip(line), ',');
  }

  /** Conversely, a url and a title without commas are read back as they are. */
  lemma ListLineRoundTrip(url: string, title: string)
    requires ',' !in url && ',' !in title && IsStripped(url + "," + title)
    ensures ParseListLine(url + "," + title) == Some((url, title))
  {
    StripStripped(url + "," + title);
    SplitOnField(url, ',', title);
    SplitOnWhole(title, ',');
  }
}

=== FILE: segmenter.dfy ===
/**
  The caption-to-sentence segmenter of dl_cc.py (`vtt_to_text` after the file
  read), as a left fold over the lines of a subtitle file.

  Each line is stripped and then classified: a cue-timing line (it contains
  `-->`) may close the current unit when its start time is at least the gap
  after the reference start; a noise line (empty, `WEBVTT...`, containing `<`,
  or a whole-line `[...]` annotation) is skipped; a text line equal to the last
  accepted text line is skipped; any other text line is appended to the buffer,
  after which every complete sentence is cut off the front of the buffer.
*/
module Segmenter {
  import opened Wrappers
  import opened Strings
  import opened Sequences
  import VttTime

  /** The default gap between cue starts that closes a unit: half a minute. */
  const DefaultGapMs: nat := 30000

  /** The loop state of `vtt_to_text`. */
  datatype Acc = Acc(
    units: seq<string>,     // `sentences`: the units emitted so far
    buf: string,            // `current_sentence`
    ref: Option<nat>,       // `sentence_start_time`, in milliseconds
    last: Option<string>)   // `last_line`: the last accepted text line

  const Start: Acc := Acc([], [], None, None)

  // ----- line classification (on the raw line; the loop strips it first) -----

  /** A cue-timing line such as `00:01:16.360 --> 00:01:18.320`. */
  predicate IsCueLine(raw: string) {
    Contains(Strip(raw), "-->")
  }

  /** A whole-line bracketed annotation, as the anchored bracket pattern matches
      it on a stripped line: `[` first, `]` last, no line break between
      (the regex dot does not match one). */
  predicate IsBracketed(line: string) {
    |line| >= 2 && line[0] == '[' && line[|line| - 1] == ']' && '\n' !in line
  }

  /** A stripped line that never contributes text. */
  predicate IsNoise(line: string) {
    line == [] || "WEBVTT" <= line || '<' in line || IsBracketed(line)
  }

  /** A line that reaches the duplicate check. */
  predicate IsTextLine(raw: string) {
    !IsCueLine(raw) && !IsNoise(Strip(raw))
  }

  /** The start time of a cue line: the text before `-->`, stripped and parsed. */
  function CueStart(raw: string): Option<nat> {
    VttTime.ParseVttTime(Strip(Before(Strip(raw), "-->")))
  }

  /** Only the start time counts: whatever follows `-->` is ignored. */
  lemma CueStartIgnoresEnd(start: string, rest: string)
    requires '-' !in start && IsStripped(start + "-->" + rest)
    ensures IsCueLine(start + "-->" + rest)
    ensures CueStart(start + "-->" + rest) == VttTime.ParseVttTime(Strip(start))
  {
    var raw := start + "-->" + rest;
    StripStripped(raw);
    assert raw[|start|..|start| + 3] == "-->";
    assert OccursAt(raw, "-->", |start|);
    ContainsOccurs(raw, "-->");
    BeforeFirst(start, "-->", rest);
  }

  // ----- sentence cutting: a terminal mark followed by whitespace or the end -----

  predicate IsTerminal(c: char) {
    c == '.' || c == '?' || c == '!'
  }

  /** The pattern matches at index `i`: a terminal mark followed by whitespace or the end. */
  predicate CutsAt(s: string, i: int) {
    0 <= i < |s| && IsTerminal(s[i]) && (i + 1 == |s| || IsSpace(s[i + 1]))
  }

  /** A unit as the loop cuts it: non-empty, stripped, ending in a terminal
      mark, and holding no other match: exactly one sentence. */
  predicate IsSentence(u: string) {
    u != [] && IsStripped(u) && IsTerminal(u[|u| - 1]) && CutOnlyAtEnd(u)
  }

  /** The pattern matches `u` nowhere but at its last character. */
  predicate CutOnlyAtEnd(u: string) {
    forall j :: 0 <= j < |u| - 1 ==> !CutsAt(u, j)
  }

  /** The pattern does not match anywhere in `s`. */
  predicate NoCut(s: string) {
    forall i :: 0 <= i < |s| ==> !CutsAt(s, i)
  }

  /** The leftmost match at or after `from`. */
  function FindCut(s: string, from: nat): (r: Option<nat>)
    requires from <= |s|
    ensures r.Some? ==> from <= r.value && CutsAt(s, r.value)
    decreases |s| - from
  {
    if from == |s| then None
    else if CutsAt(s, from) then Some(from)
    else FindCut(s, from + 1)
  }

  /** There is no match between `from` and the one `FindCut` returns (none at
      all when it returns `None`). */
  lemma {:induction false} FindCutLeftmost(s: string, from: nat)
    requires from <= |s|
    ensures forall i :: from <= i && (FindCut(s, from).None? || i < FindCut(s, from).value) ==>
      !CutsAt(s, i)
    decreases |s| - from
  {
    if from < |s| && !CutsAt(s, from) {
      FindCutLeftmost(s, from + 1);
    }
  }

  /** The end of the match at `i`: past the terminal mark and the whitespace
      run `\s+` greedily takes after it. */
  function CutEnd(s: string, i: nat): (end: nat)
    requires CutsAt(s, i)
    ensures i < end <= |s|
    ensures end == |s| || !IsSpace(s[end])
  {
    SkipSpace(s, i + 1)
  }

  /** What a cut at `i` emits: everything up to the end of the match, stripped. */
  function CutSentence(buf: string, i: nat): string
    requires CutsAt(buf, i)
  {
    Strip(buf[..CutEnd(buf, i)])
  }

  /** What a cut at `i` leaves in the buffer: the rest, left-stripped. */
  function CutRest(buf: string, i: nat): (r: string)
    requires CutsAt(buf, i)
    ensures |r| < |buf|
  {
    LStrip(Slice(buf, CutEnd(buf, i), |buf|))
  }

  /** The sentence a cut emits ends in the mark the cut was made at. */
  lemma CutSentenceEnds(buf: string, i: nat)
    requires CutsAt(buf, i)
    ensures CutSentence(buf, i) != []
    ensures CutSentence(buf, i)[|CutSentence(buf, i)| - 1] == buf[i]
  {
    var end := CutEnd(buf, i);
    var w := buf[i + 1..end];
    assert buf[..end] == buf[..i] + [buf[i]] + w;
    assert AllSpace(w) by {
      SkipSpaceSkipsSpace(buf, i + 1);
      assert forall j :: 0 <= j < |w| ==> w[j] == buf[i + 1 + j];
    }
    StripEndsWith(buf[..i], buf[i], w);
  }

  /** The sentence a cut at the leftmost match emits holds no other match: the
      loop never merges two sentences into one unit. */
  lemma CutSentenceOnce(buf: string, i: nat)
    requires CutsAt(buf, i)
    requires forall j :: 0 <= j < i ==> !CutsAt(buf, j)
    ensures CutOnlyAtEnd(CutSentence(buf, i))
  {
    var end := CutEnd(buf, i);
    var s := buf[..end];
    SkipSpaceSkipsSpace(buf, i + 1);
    var b := StripTail(s, i);
    var u := CutSentence(buf, i);
    forall j | 0 <= j < |u| - 1 ensures !CutsAt(u, j) {
      assert u[j] == buf[b + j] && u[j + 1] == buf[b + j + 1];
      assert !CutsAt(buf, b + j);
    }
  }

  /** A cut loses no text. */
  lemma CutKeepsText(buf: string, i: nat)
    requires CutsAt(buf, i)
    ensures NonSpace(buf) == NonSpace(CutSentence(buf, i)) + NonSpace(CutRest(buf, i))
  {
    var end := CutEnd(buf, i);
    var head, x := buf[..end], Slice(buf, end, |buf|);
    SliceIsSlice(buf, end, |buf|);
    assert buf == head + x;
    assert CutSentence(buf, i) == Strip(head);
    assert CutRest(buf, i) == LStrip(x);
    StripKeepsText(head);
    LStripKeepsText(x);
    NonSpaceAppend(head, x);
  }

  /** The rest of a stripped buffer is stripped. */
  lemma CutRestStripped(buf: string, i: nat)
    requires CutsAt(buf, i)
    ensures IsStripped(buf) ==> IsStripped(CutRest(buf, i))
  {
    var end := CutEnd(buf, i);
    var x := Slice(buf, end, |buf|);
    SliceAt(buf, end, |buf|);
    LStripUnchanged(x);
    assert x != [] ==> x[|x| - 1] == buf[|buf| - 1];
  }

  /** The `while True` loop: repeatedly emit everything up to the end of the
      leftmost match, stripped, and continue with the left-stripped remainder.
      Returns the sentences and the final buffer. */
  function SplitSentences(buf: string): (r: (seq<string>, string))
    ensures |r.0| == 0 ==> r.1 == buf
    decreases |buf|
  {
    match FindCut(buf, 0)
    case None => ([], buf)
    case Some(i) =>
      var rest := SplitSentences(CutRest(buf, i));
      ([CutSentence(buf, i)] + rest.0, rest.1)
  }

  /** Every unit the loop emits is one sentence: non-empty, without surrounding
      whitespace, ending in `.`, `?` or `!`, with no other match inside. */
  lemma {:induction false} SentencesEndInMarks(buf: string)
    ensures forall k :: 0 <= k < |SplitSentences(buf).0| ==> IsSentence(SplitSentences(buf).0[k])
    decreases |buf|
  {
    match FindCut(buf, 0)
    case None =>
    case Some(i) =>
      var rest := SplitSentences(CutRest(buf, i));
      SentencesEndInMarks(CutRest(buf, i));
      CutSentenceEnds(buf, i);
      FindCutLeftmost(buf, 0);
      CutSentenceOnce(buf, i);
      var sentences := SplitSentences(buf).0;
      assert sentences == [CutSentence(buf, i)] + rest.0;
      forall k | 0 <= k < |sentences| ensures IsSentence(sentences[k]) {
        if k > 0 {
          assert sentences[k] == rest.0[k - 1];
        }
      }
  }

  /** After the loop no match is left, the buffer stays stripped, and the loop
      emits something exactly when there was a match to begin with. */
  lemma {:induction false} SplitLeavesNoCut(buf: string)
    ensures NoCut(SplitSentences(buf).1)
    ensures IsStripped(buf) ==> IsStripped(SplitSentences(buf).1)
    ensures |SplitSentences(buf).0| == 0 <==> NoCut(buf)
    decreases |buf|
  {
    match FindCut(buf, 0)
    case None =>
      FindCutLeftmost(buf, 0);
    case Some(i) =>
      SplitLeavesNoCut(CutRest(buf, i));
      CutRestStripped(buf, i);
  }

  /** The loop loses no text: the sentences and the final buffer together hold
      the non-whitespace characters of the buffer, in order. */
  lemma {:induction false} SplitKeepsText(buf: string)
    ensures NonSpace(Concat(SplitSentences(buf).0)) + NonSpace(SplitSentences(buf).1) == NonSpace(buf)
    decreases |buf|
  {
    match FindCut(buf, 0)
    case None =>
      assert Concat([]) == [];
    case Some(i) =>
      var sentence := CutSentence(buf, i);
      var rest := SplitSentences(CutRest(buf, i));
      var sentences := [sentence] + rest.0;
      assert SplitSentences(buf) == (sentences, rest.1);
      ConcatAppend([sentence], rest.0);
      ConcatOne(sentence);
      SplitKeepsText(CutRest(buf, i));
      CutKeepsText(buf, i);
      NonSpaceAppend(sentence, Concat(rest.0));
      var a, b, c := NonSpace(sentence), NonSpace(Concat(rest.0)), NonSpace(rest.1);
      ConcatAssociative(a, b, c);
  }

  /** In a stripped buffer a cut takes exactly the characters up to the mark,
      skips only whitespace, and leaves the characters from the next
      non-whitespace one on, untouched. */
  lemma CutExact(buf: string, i: nat)
    requires CutsAt(buf, i) && IsStripped(buf)
    ensures CutSentence(buf, i) == buf[..i + 1]
    ensures AllSpace(buf[i + 1..CutEnd(buf, i)])
    ensures CutRest(buf, i) == buf[CutEnd(buf, i)..]
    ensures CutEnd(buf, i) == i + 1 ==> CutRest(buf, i) == []
  {
    var end := CutEnd(buf, i);
    var s := buf[..end];
    SkipSpaceSkipsSpace(buf, i + 1);
    var b := StripTail(s, i);
    assert b == 0;
    assert Strip(s) == buf[..i + 1];
    var w := buf[i + 1..end];
    assert forall j :: 0 <= j < |w| ==> w[j] == buf[i + 1 + j];
    var x := Slice(buf, end, |buf|);
    SliceIsSlice(buf, end, |buf|);
    LStripUnchanged(x);
  }

  /** `units[0] + gaps[0] + units[1] + gaps[1] + ... + rest`. */
  function Weave(units: seq<string>, gaps: seq<string>, rest: string): (r: string)
    requires |units| == |gaps|
    ensures units == [] ==> r == rest
    decreases |units|
  {
    if units == [] then rest else units[0] + gaps[0] + Weave(units[1..], gaps[1..], rest)
  }

  lemma WeaveCons(u: string, units: seq<string>, w: string, gaps: seq<string>, rest: string)
    requires |units| == |gaps|
    ensures Weave([u] + units, [w] + gaps, rest) == u + w + Weave(units, gaps, rest)
  {
    assert ([u] + units)[1..] == units && ([w] + gaps)[1..] == gaps;
  }

  /** Each gap is whitespace, and only the last may be empty, when nothing is
      left after it. */
  predicate Separators(gaps: seq<string>, rest: string) {
    forall k :: 0 <= k < |gaps| ==>
      AllSpace(gaps[k]) && (gaps[k] != [] || (k == |gaps| - 1 && rest == []))
  }

  lemma SeparatorsCons(w: string, gaps: seq<string>, rest: string)
    requires AllSpace(w) && Separators(gaps, rest)
    requires w != [] || (gaps == [] && rest == [])
    ensures Separators([w] + gaps, rest)
  {
    var all := [w] + gaps;
    forall k | 0 <= k < |all|
      ensures AllSpace(all[k]) && (all[k] != [] || (k == |all| - 1 && rest == []))
    {
      if k > 0 {
        assert all[k] == gaps[k - 1];
      }
    }
  }

  /** On a stripped buffer the loop drops nothing but whitespace: the buffer
      is the sentences and the final buffer, in order, with a non-empty run of
      whitespace after each sentence (only the last may have none, when
      nothing is left after it). */
  lemma {:induction false} SplitExact(buf: string) returns (gaps: seq<string>)
    requires IsStripped(buf)
    ensures |gaps| == |SplitSentences(buf).0|
    ensures Separators(gaps, SplitSentences(buf).1)
    ensures buf == Weave(SplitSentences(buf).0, gaps, SplitSentences(buf).1)
    decreases |buf|
  {
    match FindCut(buf, 0)
    case None =>
      gaps := [];
    case Some(i) =>
      var end := CutEnd(buf, i);
      var sentence, more := CutSentence(buf, i), CutRest(buf, i);
      var w := buf[i + 1..end];
      CutExact(buf, i);
      assert buf == sentence + w + more by {
        assert buf == buf[..i + 1] + w + buf[end..];
      }
      CutRestStripped(buf, i);
      var rest := SplitSentences(more);
      var g := SplitExact(more);
      gaps := [w] + g;
      assert SplitSentences(buf) == ([sentence] + rest.0, rest.1);
      WeaveCons(sentence, rest.0, w, g, rest.1);
      assert w != [] || (g == [] && rest.1 == []) by {
        if w == [] {
          assert FindCut(more, 0).None?;
        }
      }
      SeparatorsCons(w, g, rest.1);
  }

  // ----- the fold -----

  /** A cue-timing line whose start time is `cur` (lines 38-50). */
  function CueStep(acc: Acc, cur: Option<nat>, gapMs: nat): Acc {
    if acc.ref.Some? && cur.Some? && cur.value - acc.ref.value >= gapMs && acc.buf != [] then
      Acc(acc.units + [Strip(acc.buf)], [], cur, acc.last)
    else if acc.ref.None? && cur.Some? then
      acc.(ref := cur)
    else
      acc
  }

  /** The buffer with `line` appended, separated by one space unless the buffer
      is empty. */
  function Joined(buf: string, line: string): string {
    if buf == [] then line else buf + " " + line
  }

  /** An accepted text line (lines 60-70). */
  function TextStep(acc: Acc, line: string): Acc {
    var cut := SplitSentences(Joined(acc.buf, line));
    Acc(acc.units + cut.0, cut.1, if |cut.0| > 0 then None else acc.ref, Some(line))
  }

  /** One iteration of the `for` loop. */
  function Step(acc: Acc, raw: string, gapMs: nat): Acc {
    var line := Strip(raw);
    if Contains(line, "-->") then CueStep(acc, CueStart(raw), gapMs)
    else if IsNoise(line) then acc
    else if acc.last == Some(line) then acc
    else TextStep(acc, line)
  }

  /** The state after the loop has read `lines`. */
  function Process(lines: seq<string>, gapMs: nat): Acc
    decreases |lines|
  {
    if |lines| == 0 then Start
    else Step(Process(lines[..|lines| - 1], gapMs), lines[|lines| - 1], gapMs)
  }

  /** The units `vtt_to_text` joins: the leftover buffer, if any, is the last one. */
  function Units(lines: seq<string>, gapMs: nat): seq<string> {
    var acc := Process(lines, gapMs);
    acc.units + (if acc.buf != [] then [Strip(acc.buf)] else [])
  }

  /** `vtt_to_text` on the lines of a file. */
  function VttToText(lines: seq<string>, gapMs: nat): string {
    Join(Units(lines, gapMs), "\n")
  }

  // ----- reference: which lines are accepted -----

  /** The stripped text lines, before duplicate suppression. */
  function Candidates(lines: seq<string>): seq<string>
    decreases |lines|
  {
    if |lines| == 0 then []
    else
      var raw := lines[|lines| - 1];
      Candidates(lines[..|lines| - 1]) + (if IsTextLine(raw) then [Strip(raw)] else [])
  }

  /** The text lines whose text goes into the output: stripped text lines with
      adjacent repeats removed. Cue lines in between do not separate repeats. */
  function AcceptedLines(lines: seq<string>): seq<string> {
    DedupAdjacent(Candidates(lines))
  }

  // ----- the fold's invariant -----

  /** What holds of the state between iterations: the buffer is stripped and
      holds no complete sentence, and every emitted unit is non-empty and stripped. */
  predicate Valid(acc: Acc) {
    IsStripped(acc.buf) && NoCut(acc.buf) && AllUnits(acc.units)
  }

  /** Every unit is non-empty and stripped. */
  predicate AllUnits(units: seq<string>) {
    forall k :: 0 <= k < |units| ==> units[k] != [] && IsStripped(units[k])
  }

  /** Appending well-formed units keeps the units well formed. */
  lemma AllUnitsAppend(units: seq<string>, more: seq<string>)
    requires AllUnits(units) && AllUnits(more)
    ensures AllUnits(units + more)
  {
    forall k | 0 <= k < |units + more| ensures (units + more)[k] != [] && IsStripped((units + more)[k]) {
      if k < |units| {
        assert (units + more)[k] == units[k];
      } else {
        assert (units + more)[k] == more[k - |units|];
      }
    }
  }

  /** The non-whitespace text the state holds, emitted or buffered. */
  function TextOf(acc: Acc): string {
    NonSpace(Concat(acc.units)) + NonSpace(acc.buf)
  }

  lemma ProcessAppend(p: seq<string>, raw: string, gapMs: nat)
    ensures Process(p + [raw], gapMs) == Step(Process(p, gapMs), raw, gapMs)
  {
    assert (p + [raw])[..|p|] == p;
  }

  lemma ConcatAppendText(units: seq<string>, more: seq<string>)
    ensures NonSpace(Concat(units + more)) == NonSpace(Concat(units)) + NonSpace(Concat(more))
  {
    ConcatAppend(units, more);
    NonSpaceAppend(Concat(units), Concat(more));
  }

  lemma ConcatOne(line: string)
    ensures Concat([line]) == line
  {
    assert [line][..0] == [];
  }

  /** The joined buffer of an accepted line is stripped. */
  lemma JoinedStripped(buf: string, line: string)
    requires IsStripped(buf) && IsStripped(line) && line != []
    ensures IsStripped(Joined(buf, line))
  {
    if buf != [] {
      var joined := buf + " " + line;
      assert joined[|joined| - 1] == line[|line| - 1];
      assert joined[0] == buf[0];
    }
  }

  /** The joined buffer holds the text of both, and nothing else. */
  lemma JoinedText(buf: string, line: string)
    ensures NonSpace(Joined(buf, line)) == NonSpace(buf) + NonSpace(line)
  {
    if buf != [] {
      var sp: string := " ";
      var head := buf + sp;
      assert Joined(buf, line) == head + line;
      NonSpaceAppend(head, line);
      NonSpaceAppend(buf, sp);
      NonSpaceAllSpace(sp);
      assert NonSpace(head) == NonSpace(buf);
    }
  }

  /** An accepted line keeps the invariant. */
  lemma TextStepValid(acc: Acc, line: string)
    requires Valid(acc) && IsStripped(line) && line != []
    ensures Valid(TextStep(acc, line))
  {
    var joined := Joined(acc.buf, line);
    var cut := SplitSentences(joined);
    var next := TextStep(acc, line);
    assert next.units == acc.units + cut.0 && next.buf == cut.1;
    JoinedStripped(acc.buf, line);
    SentencesEndInMarks(joined);
    SplitLeavesNoCut(joined);
    AllUnitsAppend(acc.units, cut.0);
  }

  /** An accepted line adds exactly its own text. */
  lemma TextStepText(acc: Acc, line: string)
    ensures TextOf(TextStep(acc, line)) == TextOf(acc) + NonSpace(line)
  {
    var joined := Joined(acc.buf, line);
    var cut := SplitSentences(joined);
    var next := TextStep(acc, line);
    assert next.units == acc.units + cut.0 && next.buf == cut.1;
    JoinedText(acc.buf, line);
    SplitKeepsText(joined);
    ConcatAppendText(acc.units, cut.0);
    var u, a, b, c, d := NonSpace(Concat(acc.units)), NonSpace(Concat(cut.0)), NonSpace(cut.1), NonSpace(acc.buf), NonSpace(line);
    ConcatAssociative(u, a, b);
    ConcatAssociative(u, c, d);
  }

  /** A cue line keeps the invariant, adds no text and leaves `last_line` alone. */
  lemma CueStepInvariant(acc: Acc, cur: Option<nat>, gapMs: nat)
    requires Valid(acc)
    ensures Valid(CueStep(acc, cur, gapMs))
    ensures TextOf(CueStep(acc, cur, gapMs)) == TextOf(acc)
    ensures CueStep(acc, cur, gapMs).last == acc.last
  {
    var next := CueStep(acc, cur, gapMs);
    if acc.ref.Some? && cur.Some? && cur.value - acc.ref.value >= gapMs && acc.buf != [] {
      StripStripped(acc.buf);
      assert next == Acc(acc.units + [acc.buf], [], cur, acc.last);
      ConcatSnoc(acc.units, acc.buf);
      NonSpaceAppend(Concat(acc.units), acc.buf);
      assert NonSpace(next.buf) == [];
      AllUnitsAppend(acc.units, [acc.buf]);
    } else {
      assert next.units == acc.units && next.buf == acc.buf;
    }
  }

  /** Accepting `line` appends it to the accepted lines' text. */
  lemma AcceptedText(accepted: seq<string>, line: string)
    ensures NonSpace(Concat(accepted + [line])) == NonSpace(Concat(accepted)) + NonSpace(line)
  {
    ConcatSnoc(accepted, line);
    NonSpaceAppend(Concat(accepted), line);
  }

  /** The loop invariant of `vtt_to_text` after reading `lines`: the state is
      well formed, `last_line` is the last accepted line, and the emitted and
      buffered text is exactly the text of the accepted lines. */
  predicate Tracks(lines: seq<string>, gapMs: nat) {
    && Valid(Process(lines, gapMs))
    && Process(lines, gapMs).last == LastOf(AcceptedLines(lines))
    && TextOf(Process(lines, gapMs)) == NonSpace(Concat(AcceptedLines(lines)))
  }

  /** Reading a line that is not accepted changes neither the accepted lines
      nor, for a cue line, the text and `last_line`. */
  lemma NotAcceptedStep(p: seq<string>, raw: string, gapMs: nat)
    requires Tracks(p, gapMs)
    requires !IsTextLine(raw) || Process(p, gapMs).last == Some(Strip(raw))
    ensures Tracks(p + [raw], gapMs)
  {
    var acc := Process(p, gapMs);
    var line := Strip(raw);
    ProcessAppend(p, raw, gapMs);
    assert (p + [raw])[..|p|] == p;
    if IsTextLine(raw) {
      assert Candidates(p + [raw]) == Candidates(p) + [line];
      DedupAppend(Candidates(p), line);
    } else {
      assert Candidates(p + [raw]) == Candidates(p);
      if IsCueLine(raw) {
        CueStepInvariant(acc, CueStart(raw), gapMs);
      }
    }
  }

  /** A text line that differs from `last_line` goes to the sentence splitter. */
  lemma TextLineStep(acc: Acc, raw: string, gapMs: nat)
    requires IsTextLine(raw) && acc.last != Some(Strip(raw))
    ensures Step(acc, raw, gapMs) == TextStep(acc, Strip(raw))
  {
  }

  /** A text line that differs from the last accepted one is accepted. */
  lemma AcceptedLinesSnoc(p: seq<string>, raw: string)
    requires IsTextLine(raw) && LastOf(AcceptedLines(p)) != Some(Strip(raw))
    ensures AcceptedLines(p + [raw]) == AcceptedLines(p) + [Strip(raw)]
  {
    assert (p + [raw])[..|p|] == p;
    assert Candidates(p + [raw]) == Candidates(p) + [Strip(raw)];
    DedupAppend(Candidates(p), Strip(raw));
  }

  /** Reading an accepted line appends it to the accepted lines. */
  lemma AcceptedStep(p: seq<string>, raw: string, gapMs: nat)
    requires Tracks(p, gapMs)
    requires IsTextLine(raw) && Process(p, gapMs).last != Some(Strip(raw))
    ensures Tracks(p + [raw], gapMs)
  {
    var acc := Process(p, gapMs);
    var line := Strip(raw);
    ProcessAppend(p, raw, gapMs);
    TextLineStep(acc, raw, gapMs);
    AcceptedLinesSnoc(p, raw);
    TextStepValid(acc, line);
    TextStepText(acc, line);
    AcceptedText(AcceptedLines(p), line);
  }

  lemma {:induction false} ProcessInvariant(lines: seq<string>, gapMs: nat)
    ensures Tracks(lines, gapMs)
    decreases |lines|
  {
    if |lines| > 0 {
      var p, raw := lines[..|lines| - 1], lines[|lines| - 1];
      assert lines == p + [raw];
      ProcessInvariant(p, gapMs);
      if IsTextLine(raw) && Process(p, gapMs).last != Some(Strip(raw)) {
        AcceptedStep(p, raw, gapMs);
      } else {
        NotAcceptedStep(p, raw, gapMs);
      }
    } else {
      assert Concat([]) == [] && NonSpace([]) == [];
    }
  }

  // ----- what `vtt_to_text` promises -----

  /** No text is lost or invented: the output holds exactly the non-whitespace
      characters of the accepted lines, in order. */
  lemma NoTextLoss(lines: seq<string>, gapMs: nat)
    ensures NonSpace(VttToText(lines, gapMs)) == NonSpace(Concat(AcceptedLines(lines)))
  {
    ProcessInvariant(lines, gapMs);
    var acc := Process(lines, gapMs);
    JoinKeepsText(Units(lines, gapMs), "\n");
    if acc.buf != [] {
      StripStripped(acc.buf);
      assert Units(lines, gapMs) == acc.units + [acc.buf];
      ConcatAppendText(acc.units, [acc.buf]);
      ConcatOne(acc.buf);
    } else {
      assert Units(lines, gapMs) == acc.units;
      assert NonSpace(acc.buf) == [];
    }
  }

  /** `vtt_to_text` as the script runs it, with its gap of half a minute: the
      output holds exactly the text of the accepted lines. */
  function DefaultVttToText(lines: seq<string>): (r: string)
    ensures NonSpace(r) == NonSpace(Concat(AcceptedLines(lines)))
  {
    NoTextLoss(lines, DefaultGapMs);
    VttToText(lines, DefaultGapMs)
  }

  /** Every output unit is non-empty with no surrounding whitespace; the
      leftover buffer, when there is one, is the last unit as it stands. */
  lemma UnitsWellFormed(lines: seq<string>, gapMs: nat)
    ensures forall k :: 0 <= k < |Units(lines, gapMs)| ==>
      Units(lines, gapMs)[k] != [] && IsStripped(Units(lines, gapMs)[k])
    ensures Process(lines, gapMs).buf != [] ==>
      Units(lines, gapMs) == Process(lines, gapMs).units + [Process(lines, gapMs).buf]
    ensures Process(lines, gapMs).buf == [] ==> Units(lines, gapMs) == Process(lines, gapMs).units
  {
    ProcessInvariant(lines, gapMs);
    var acc := Process(lines, gapMs);
    if acc.buf != [] {
      StripStripped(acc.buf);
      var units := Units(lines, gapMs);
      assert units == acc.units + [acc.buf];
      AllUnitsAppend(acc.units, [acc.buf]);
    }
  }

  /** Candidate lines are stripped text lines. */
  lemma {:induction false} CandidatesAreText(lines: seq<string>)
    ensures forall x :: x in Candidates(lines) ==>
      x != [] && IsStripped(x) && !Contains(x, "-->") && !IsNoise(x)
    decreases |lines|
  {
    if |lines| > 0 {
      CandidatesAreText(lines[..|lines| - 1]);
    }
  }

  /** Only text lines are accepted: never a cue line, a header, a tag or a
      bracketed annotation; and no line is accepted twice in a row. */
  lemma AcceptedLinesAreText(lines: seq<string>)
    ensures forall x :: x in AcceptedLines(lines) ==>
      x != [] && IsStripped(x) && !Contains(x, "-->") && !IsNoise(x)
    ensures NoAdjacentDuplicates(AcceptedLines(lines))
  {
    CandidatesAreText(lines);
    DedupSubsequence(Candidates(lines));
    DedupNoAdjacent(Candidates(lines));
    forall x | x in AcceptedLines(lines)
      ensures x != [] && IsStripped(x) && !Contains(x, "-->") && !IsNoise(x)
    {
      SubsequenceMember(AcceptedLines(lines), Candidates(lines), x);
    }
  }

  // ----- one line at a time -----

  /** A noise line leaves the state as it was. */
  lemma NoiseLineIgnored(p: seq<string>, raw: string, gapMs: nat)
    requires !IsCueLine(raw) && IsNoise(Strip(raw))
    ensures Process(p + [raw], gapMs) == Process(p, gapMs)
  {
    ProcessAppend(p, raw, gapMs);
  }

  /** A text line equal to the last accepted line leaves the state as it was. */
  lemma RepeatIgnored(p: seq<string>, raw: string, gapMs: nat)
    requires IsTextLine(raw) && Process(p, gapMs).last == Some(Strip(raw))
    ensures Process(p + [raw], gapMs) == Process(p, gapMs)
  {
    ProcessAppend(p, raw, gapMs);
  }

  predicate AllCueLines(lines: seq<string>) {
    forall k :: 0 <= k < |lines| ==> IsCueLine(lines[k])
  }

  /** A cue line never changes `last_line`. */
  lemma CueStepKeepsLast(acc: Acc, raw: string, gapMs: nat)
    requires IsCueLine(raw)
    ensures Step(acc, raw, gapMs).last == acc.last
  {
  }

  /** Reading only cue lines after the first `n` lines leaves `last_line` as
      it was after those `n`. */
  lemma {:induction false} CueLinesKeepLastFrom(lines: seq<string>, n: nat, gapMs: nat)
    requires n <= |lines|
    requires forall k :: n <= k < |lines| ==> IsCueLine(lines[k])
    ensures Process(lines, gapMs).last == Process(lines[..n], gapMs).last
    decreases |lines|
  {
    if n < |lines| {
      var front, raw := lines[..|lines| - 1], lines[|lines| - 1];
      assert front[..n] == lines[..n];
      CueLinesKeepLastFrom(front, n, gapMs);
      CueStepKeepsLast(Process(front, gapMs), raw, gapMs);
    } else {
      assert lines[..n] == lines;
    }
  }

  /** Cue lines never change `last_line`. */
  lemma CueLinesKeepLast(p: seq<string>, cues: seq<string>, gapMs: nat)
    requires AllCueLines(cues)
    ensures Process(p + cues, gapMs).last == Process(p, gapMs).last
  {
    var lines := p + cues;
    assert lines[..|p|] == p;
    assert forall k :: |p| <= k < |lines| ==> lines[k] == cues[k - |p|];
    CueLinesKeepLastFrom(lines, |p|, gapMs);
  }

  /** After a text line is read, `last_line` is that line. */
  lemma TextLineIsLast(p: seq<string>, raw: string, gapMs: nat)
    requires IsTextLine(raw)
    ensures Process(p + [raw], gapMs).last == Some(Strip(raw))
  {
    ProcessAppend(p, raw, gapMs);
  }

  /** The roll-up captions YouTube produces repeat a line across a cue
      boundary; the repeat is dropped, whatever cue lines come between. */
  lemma RepeatAcrossCuesIgnored(p: seq<string>, raw: string, cues: seq<string>, gapMs: nat)
    requires IsTextLine(raw) && AllCueLines(cues)
    ensures Process(p + [raw] + cues + [raw], gapMs) == Process(p + [raw] + cues, gapMs)
  {
    TextLineIsLast(p, raw, gapMs);
    CueLinesKeepLast(p + [raw], cues, gapMs);
    RepeatIgnored(p + [raw] + cues, raw, gapMs);
  }

  /** A cue line whose start time does not parse changes nothing. */
  lemma MalformedCueIgnored(p: seq<string>, raw: string, gapMs: nat)
    requires IsCueLine(raw) && CueStart(raw).None?
    ensures Process(p + [raw], gapMs) == Process(p, gapMs)
  {
    ProcessAppend(p, raw, gapMs);
  }

  /** The first parsed cue start after a boundary becomes the reference time. */
  lemma FirstCueSetsReference(p: seq<string>, raw: string, gapMs: nat)
    requires IsCueLine(raw) && CueStart(raw).Some? && Process(p, gapMs).ref.None?
    ensures Process(p + [raw], gapMs) == Process(p, gapMs).(ref := CueStart(raw))
  {
    ProcessAppend(p, raw, gapMs);
  }

  /** A cue starting at least `gapMs` after the reference closes the buffer as a
      unit, and its own start becomes the new reference. */
  lemma GapClosesUnit(p: seq<string>, raw: string, gapMs: nat)
    requires IsCueLine(raw) && CueStart(raw).Some?
    requires Process(p, gapMs).ref.Some? && Process(p, gapMs).buf != []
    requires CueStart(raw).value >= Process(p, gapMs).ref.value + gapMs
    ensures Process(p + [raw], gapMs).units == Process(p, gapMs).units + [Process(p, gapMs).buf]
    ensures Process(p + [raw], gapMs).buf == []
    ensures Process(p + [raw], gapMs).ref == CueStart(raw)
    ensures Process(p + [raw], gapMs).last == Process(p, gapMs).last
  {
    ProcessAppend(p, raw, gapMs);
    ProcessInvariant(p, gapMs);
    StripStripped(Process(p, gapMs).buf);
  }

  /** A cue closer than `gapMs` to the reference, or with nothing buffered,
      changes nothing once a reference is set. */
  lemma NoGapNoBoundary(p: seq<string>, raw: string, gapMs: nat)
    requires IsCueLine(raw) && Process(p, gapMs).ref.Some?
    requires CueStart(raw).None? || CueStart(raw).value < Process(p, gapMs).ref.value + gapMs
      || Process(p, gapMs).buf == []
    ensures Process(p + [raw], gapMs) == Process(p, gapMs)
  {
    ProcessAppend(p, raw, gapMs);
  }

  /** An accepted line only appends units, and clears the reference exactly
      when it appends one. */
  lemma TextStepShape(acc: Acc, line: string)
    ensures acc.units <= TextStep(acc, line).units
    ensures |TextStep(acc, line).units| > |acc.units| ==> TextStep(acc, line).ref.None?
    ensures |TextStep(acc, line).units| == |acc.units| ==> TextStep(acc, line).ref == acc.ref
  {
    var cut := SplitSentences(Joined(acc.buf, line));
    assert TextStep(acc, line).units == acc.units + cut.0;
  }

  lemma AppendSentences(units: seq<string>, more: seq<string>)
    requires forall k :: 0 <= k < |more| ==> IsSentence(more[k])
    ensures forall k :: |units| <= k < |units + more| ==> IsSentence((units + more)[k])
  {
    forall k | |units| <= k < |units + more| ensures IsSentence((units + more)[k]) {
      assert (units + more)[k] == more[k - |units|];
    }
  }

  /** The units an accepted line appends are sentences, and no sentence is left
      in the buffer. */
  lemma TextStepSentences(acc: Acc, line: string)
    ensures forall k :: |acc.units| <= k < |TextStep(acc, line).units| ==> IsSentence(TextStep(acc, line).units[k])
    ensures NoCut(TextStep(acc, line).buf)
  {
    var joined := Joined(acc.buf, line);
    var cut := SplitSentences(joined);
    assert TextStep(acc, line).units == acc.units + cut.0;
    assert TextStep(acc, line).buf == cut.1;
    SentencesEndInMarks(joined);
    SplitLeavesNoCut(joined);
    AppendSentences(acc.units, cut.0);
  }

  /** An accepted line appends to the buffer and cuts every complete sentence
      off it: each unit it emits ends in a terminal mark, the buffer is left
      with none, and the reference is cleared exactly when a sentence was cut. */
  lemma AcceptedLineCutsSentences(p: seq<string>, raw: string, gapMs: nat)
    requires IsTextLine(raw) && Process(p, gapMs).last != Some(Strip(raw))
    ensures Process(p, gapMs).units <= Process(p + [raw], gapMs).units
    ensures forall k :: |Process(p, gapMs).units| <= k < |Process(p + [raw], gapMs).units| ==>
      IsSentence(Process(p + [raw], gapMs).units[k])
    ensures NoCut(Process(p + [raw], gapMs).buf)
    ensures |Process(p + [raw], gapMs).units| > |Process(p, gapMs).units| ==>
      Process(p + [raw], gapMs).ref.None?
    ensures |Process(p + [raw], gapMs).units| == |Process(p, gapMs).units| ==>
      Process(p + [raw], gapMs).ref == Process(p, gapMs).ref
    ensures Process(p + [raw], gapMs).last == Some(Strip(raw))
  {
    ProcessAppend(p, raw, gapMs);
    assert Process(p + [raw], gapMs) == TextStep(Process(p, gapMs), Strip(raw));
    TextStepShape(Process(p, gapMs), Strip(raw));
    TextStepSentences(Process(p, gapMs), Strip(raw));
  }

  lemma CueStepExtends(acc: Acc, cur: Option<nat>, gapMs: nat)
    ensures acc.units <= CueStep(acc, cur, gapMs).units
  {
  }

  /** No step revises an emitted unit. */
  lemma StepExtendsUnits(acc: Acc, raw: string, gapMs: nat)
    ensures acc.units <= Step(acc, raw, gapMs).units
  {
    var line := Strip(raw);
    if Contains(line, "-->") {
      CueStepExtends(acc, CueStart(raw), gapMs);
    } else if !IsNoise(line) && acc.last != Some(line) {
      assert Step(acc, raw, gapMs) == TextStep(acc, line);
      TextStepShape(acc, line);
    }
  }

  /** Emitted units are never revised: the units after the first `n` lines
      are a prefix of the units after all of them. */
  lemma {:induction false} UnitsPrefix(lines: seq<string>, n: nat, gapMs: nat)
    requires n <= |lines|
    ensures Process(lines[..n], gapMs).units <= Process(lines, gapMs).units
    decreases |lines|
  {
    if n < |lines| {
      var front, raw := lines[..|lines| - 1], lines[|lines| - 1];
      assert front[..n] == lines[..n];
      UnitsPrefix(front, n, gapMs);
      StepExtendsUnits(Process(front, gapMs), raw, gapMs);
    } else {
      assert lines[..n] == lines;
    }
  }

  /** Reading more lines only appends units. */
  lemma UnitsOnlyGrow(p: seq<string>, q: seq<string>, gapMs: nat)
    ensures Process(p, gapMs).units <= Process(p + q, gapMs).units
  {
    assert (p + q)[..|p|] == p;
    UnitsPrefix(p + q, |p|, gapMs);
  }
}

=== FILE: sequences.dfy ===
/**
  Order-preserving selections of a sequence: filtering by a verdict on each
  element, adjacent-duplicate suppression (keep an element unless it equals
  the last element kept) and the subsequence relation used to say that output
  lines are input lines, in order.
*/
module Sequences {
  import opened Wrappers

  /** No element equals the one right after it. */
  ghost predicate NoAdjacentDuplicates<T>(s: seq<T>) {
    forall i, j :: 0 <= i < j < |s| && j == i + 1 ==> s[i] != s[j]
  }

  /** Drop every element equal to the last element kept so far. */
  function DedupAdjacent<T(==)>(s: seq<T>): (r: seq<T>)
    ensures LastOf(r) == LastOf(s)
    ensures |r| <= |s|
  {
    if |s| == 0 then []
    else
      var d := DedupAdjacent(s[..|s| - 1]);
      if |d| > 0 && d[|d| - 1] == s[|s| - 1] then d else d + [s[|s| - 1]]
  }

  /** No two adjacent elements of the result are equal. */
  lemma {:induction false} DedupNoAdjacent<T>(s: seq<T>)
    ensures NoAdjacentDuplicates(DedupAdjacent(s))
    decreases |s|
  {
    if |s| > 0 {
      var d := DedupAdjacent(s[..|s| - 1]);
      DedupNoAdjacent(s[..|s| - 1]);
      if !(|d| > 0 && d[|d| - 1] == s[|s| - 1]) {
        var r := d + [s[|s| - 1]];
        forall i, j | 0 <= i < j < |r| && j == i + 1 ensures r[i] != r[j] {
          if j < |d| {
            assert r[i] == d[i] && r[j] == d[j];
          }
        }
      }
    }
  }

  /** Reading one more element: it is kept exactly when it differs from the
      last element kept so far. */
  lemma DedupSnoc<T>(s: seq<T>, x: T)
    ensures DedupAdjacent(s + [x]) ==
      if LastOf(DedupAdjacent(s)) == Some(x) then DedupAdjacent(s) else DedupAdjacent(s) + [x]
  {
    assert (s + [x])[..|s|] == s;
  }

  /** An element is dropped exactly when it equals its predecessor in the input. */
  lemma DedupAppend<T>(s: seq<T>, x: T)
    ensures LastOf(s) == Some(x) ==> DedupAdjacent(s + [x]) == DedupAdjacent(s)
    ensures LastOf(s) != Some(x) ==> DedupAdjacent(s + [x]) == DedupAdjacent(s) + [x]
  {
    DedupSnoc(s, x);
  }

  /** A sequence without adjacent duplicates is left as it is. */
  lemma {:induction false} DedupNoDuplicates<T>(s: seq<T>)
    requires NoAdjacentDuplicates(s)
    ensures DedupAdjacent(s) == s
    decreases |s|
  {
    if |s| > 0 {
      var p := s[..|s| - 1];
      assert NoAdjacentDuplicates(p) by {
        forall i, j | 0 <= i < j < |p| && j == i + 1 ensures p[i] != p[j] {
          assert p[i] == s[i] && p[j] == s[j];
        }
      }
      DedupNoDuplicates(p);
      assert s == p + [s[|s| - 1]];
      if |p| > 0 {
        assert s[|s| - 2] != s[|s| - 1];
      }
    }
  }

  /** `a` can be obtained from `b` by deleting elements. */
  predicate IsSubsequence<T(==)>(a: seq<T>, b: seq<T>)
    decreases |b|
  {
    |a| == 0 ||
    (|b| > 0 &&
      ((a[|a| - 1] == b[|b| - 1] && IsSubsequence(a[..|a| - 1], b[..|b| - 1]))
       || IsSubsequence(a, b[..|b| - 1])))
  }

  lemma {:induction false} SubsequenceLength<T>(a: seq<T>, b: seq<T>)
    requires IsSubsequence(a, b)
    ensures |a| <= |b|
    decreases |b|
  {
    if |a| > 0 {
      if a[|a| - 1] == b[|b| - 1] && IsSubsequence(a[..|a| - 1], b[..|b| - 1]) {
        SubsequenceLength(a[..|a| - 1], b[..|b| - 1]);
      } else {
        SubsequenceLength(a, b[..|b| - 1]);
      }
    }
  }

  lemma {:induction false} SubsequenceMember<T>(a: seq<T>, b: seq<T>, x: T)
    requires IsSubsequence(a, b) && x in a
    ensures x in b
    decreases |b|
  {
    if a[|a| - 1] == b[|b| - 1] && IsSubsequence(a[..|a| - 1], b[..|b| - 1]) {
      if x != a[|a| - 1] {
        assert x in a[..|a| - 1] by {
          var i :| 0 <= i < |a| && a[i] == x;
          assert a[..|a| - 1][i] == x;
        }
        SubsequenceMember(a[..|a| - 1], b[..|b| - 1], x);
      }
    } else {
      SubsequenceMember(a, b[..|b| - 1], x);
    }
  }

  lemma {:induction false} SubsequenceTransitive<T>(a: seq<T>, b: seq<T>, c: seq<T>)
    requires IsSubsequence(a, b) && IsSubsequence(b, c)
    ensures IsSubsequence(a, c)
    decreases |c|
  {
    if |a| > 0 {
      SubsequenceLength(a, b);
      if IsSubsequence(b, c[..|c| - 1]) {
        SubsequenceTransitive(a, b, c[..|c| - 1]);
      } else {
        assert b[|b| - 1] == c[|c| - 1] && IsSubsequence(b[..|b| - 1], c[..|c| - 1]);
        if a[|a| - 1] == b[|b| - 1] && IsSubsequence(a[..|a| - 1], b[..|b| - 1]) {
          SubsequenceTransitive(a[..|a| - 1], b[..|b| - 1], c[..|c| - 1]);
        } else {
          SubsequenceTransitive(a, b[..|b| - 1], c[..|c| - 1]);
        }
      }
    }
  }

  /** Adjacent-duplicate suppression only deletes. */
  lemma {:induction false} DedupSubsequence<T>(s: seq<T>)
    ensures IsSubsequence(DedupAdjacent(s), s)
    decreases |s|
  {
    if |s| > 0 {
      var p := s[..|s| - 1];
      DedupSubsequence(p);
      var d := DedupAdjacent(p);
      if |d| > 0 && d[|d| - 1] == s[|s| - 1] {
        assert IsSubsequence(d, s);
      } else {
        assert (d + [s[|s| - 1]])[..|d|] == d;
      }
    }
  }

  /** Suppression removes repeats only: the same elements remain. */
  lemma {:induction false} DedupSameElements<T>(s: seq<T>, x: T)
    ensures x in DedupAdjacent(s) <==> x in s
    decreases |s|
  {
    if |s| > 0 {
      var p, y := s[..|s| - 1], s[|s| - 1];
      assert s == p + [y];
      DedupSameElements(p, x);
      var d := DedupAdjacent(p);
      if |d| > 0 && d[|d| - 1] == y {
        assert DedupAdjacent(s) == d;
      } else {
        assert DedupAdjacent(s) == d + [y];
      }
    }
  }

  /** Extending the longer sequence keeps a subsequence, and extending both
      by the same element does too. */
  lemma SubsequenceAppend<T>(a: seq<T>, b: seq<T>, x: T)
    requires IsSubsequence(a, b)
    ensures IsSubsequence(a, b + [x])
    ensures IsSubsequence(a + [x], b + [x])
  {
    assert (b + [x])[..|b|] == b;
    assert (a + [x])[..|a|] == a;
  }

  // ----- filtering -----

  /** The elements of `s` that `keep` accepts, in their order. */
  function Filter<T>(keep: T -> bool, s: seq<T>): (r: seq<T>)
    ensures |r| <= |s|
    decreases |s|
  {
    if |s| == 0 then []
    else Filter(keep, s[..|s| - 1]) + (if keep(s[|s| - 1]) then [s[|s| - 1]] else [])
  }

  /** One more element is appended exactly when it is accepted. */
  lemma FilterSnoc<T>(keep: T -> bool, s: seq<T>, x: T)
    ensures keep(x) ==> Filter(keep, s + [x]) == Filter(keep, s) + [x]
    ensures !keep(x) ==> Filter(keep, s + [x]) == Filter(keep, s)
  {
    assert (s + [x])[..|s|] == s;
  }

  /** Filtering distributes over concatenation: each element is judged on its own. */
  lemma {:induction false} FilterAppend<T>(keep: T -> bool, a: seq<T>, b: seq<T>)
    ensures Filter(keep, a + b) == Filter(keep, a) + Filter(keep, b)
    decreases |b|
  {
    if |b| == 0 {
      assert a + b == a;
    } else {
      var front, x := b[..|b| - 1], b[|b| - 1];
      assert b == front + [x];
      assert a + b == (a + front) + [x];
      FilterAppend(keep, a, front);
      FilterSnoc(keep, a + front, x);
      FilterSnoc(keep, front, x);
    }
  }

  /** Filtering only deletes. */
  lemma {:induction false} FilterSubsequence<T>(keep: T -> bool, s: seq<T>)
    ensures IsSubsequence(Filter(keep, s), s)
    decreases |s|
  {
    if |s| > 0 {
      var p, x := s[..|s| - 1], s[|s| - 1];
      assert s == p + [x];
      FilterSubsequence(keep, p);
      FilterSnoc(keep, p, x);
      SubsequenceAppend(Filter(keep, p), p, x);
    }
  }

  /** An element is in the result exactly when it is in `s` and accepted. */
  lemma {:induction false} FilterMembers<T>(keep: T -> bool, s: seq<T>, x: T)
    ensures x in Filter(keep, s) <==> x in s && keep(x)
    decreases |s|
  {
    if |s| > 0 {
      var p, y := s[..|s| - 1], s[|s| - 1];
      assert s == p + [y];
      FilterMembers(keep, p, x);
      FilterSnoc(keep, p, y);
    }
  }

  /** A sequence whose elements are all accepted is left as it is. */
  lemma {:induction false} FilterAllKept<T>(keep: T -> bool, s: seq<T>)
    requires forall k :: 0 <= k < |s| ==> keep(s[k])
    ensures Filter(keep, s) == s
    decreases |s|
  {
    if |s| > 0 {
      var p := s[..|s| - 1];
      assert forall k :: 0 <= k < |p| ==> p[k] == s[k];
      FilterAllKept(keep, p);
    }
  }

  /** Filtering twice with the same verdict is filtering once. */
  lemma FilterIdempotent<T>(keep: T -> bool, s: seq<T>)
    ensures Filter(keep, Filter(keep, s)) == Filter(keep, s)
  {
    var r := Filter(keep, s);
    forall k | 0 <= k < |r| ensures keep(r[k]) {
      FilterMembers(keep, s, r[k]);
    }
    FilterAllKept(keep, r);
  }
}

=== FILE: strings.dfy ===
/**
  Text primitives shared by the three scripts: Python's notion of whitespace,
  `str.strip`/`lstrip`, substring search, `str.split` on one character,
  `str.join`, ASCII `str.lower`, and the non-whitespace projection used to
  state "no text is lost".

  Recursive definitions peel the last element (`s[..|s| - 1]`) and searches
  walk an index, so that specifications speak of prefixes and positions of
  the original string.
*/
module Strings {
  import opened Wrappers

  /** `str.isspace()`: the characters `str.strip()` removes and `\s` matches. */
  predicate IsSpace(c: char) {
    || c == ' '
    || ('\t' <= c <= '\r')
    || ('\U{1c}' <= c <= '\U{1f}')
    || c == '\U{85}' || c == '\U{a0}' || c == '\U{1680}'
    || ('\U{2000}' <= c <= '\U{200a}')
    || c == '\U{2028}' || c == '\U{2029}' || c == '\U{202f}'
    || c == '\U{205f}' || c == '\U{3000}'
  }

  predicate AllSpace(s: string) {
    forall i :: 0 <= i < |s| ==> IsSpace(s[i])
  }

  /** Neither end is whitespace: what `str.strip()` returns. */
  predicate IsStripped(s: string) {
    s == [] || (!IsSpace(s[0]) && !IsSpace(s[|s| - 1]))
  }

  // ----- slicing and stripping -----

  /** `s[lo:hi]`. */
  function Slice(s: string, lo: nat, hi: nat): (r: string)
    requires lo <= hi <= |s|
    ensures |r| == hi - lo
    decreases hi - lo
  {
    if lo == hi then [] else Slice(s, lo, hi - 1) + [s[hi - 1]]
  }

  /** `Slice` copies the positions `lo` to `hi` of `s`, in order. */
  lemma {:induction false} SliceAt(s: string, lo: nat, hi: nat)
    requires lo <= hi <= |s|
    ensures forall j :: 0 <= j < hi - lo ==> Slice(s, lo, hi)[j] == s[lo + j]
    decreases hi - lo
  {
    if lo < hi {
      SliceAt(s, lo, hi - 1);
    }
  }

  /** `Slice` is Dafny's own slice. */
  lemma SliceIsSlice(s: string, lo: nat, hi: nat)
    requires lo <= hi <= |s|
    ensures Slice(s, lo, hi) == s[lo..hi]
  {
    SliceAt(s, lo, hi);
  }

  /** The first index at or after `from` that is not whitespace, or `|s|`. */
  function SkipSpace(s: string, from: nat): (k: nat)
    requires from <= |s|
    ensures from <= k <= |s|
    ensures k == |s| || !IsSpace(s[k])
    decreases |s| - from
  {
    if from < |s| && IsSpace(s[from]) then SkipSpace(s, from + 1) else from
  }

  /** What `SkipSpace` skips is whitespace. */
  lemma {:induction false} SkipSpaceSkipsSpace(s: string, from: nat)
    requires from <= |s|
    ensures forall j :: from <= j < SkipSpace(s, from) ==> IsSpace(s[j])
    decreases |s| - from
  {
    if from < |s| && IsSpace(s[from]) {
      SkipSpaceSkipsSpace(s, from + 1);
    }
  }

  /** The index just past the last character before `hi` that is not
      whitespace, or 0. */
  function SkipSpaceBack(s: string, hi: nat): (k: nat)
    requires hi <= |s|
    ensures k <= hi
    ensures k == 0 || !IsSpace(s[k - 1])
    decreases hi
  {
    if hi > 0 && IsSpace(s[hi - 1]) then SkipSpaceBack(s, hi - 1) else hi
  }

  /** What `SkipSpaceBack` skips is whitespace. */
  lemma {:induction false} SkipSpaceBackSkipsSpace(s: string, hi: nat)
    requires hi <= |s|
    ensures forall j :: SkipSpaceBack(s, hi) <= j < hi ==> IsSpace(s[j])
    decreases hi
  {
    if hi > 0 && IsSpace(s[hi - 1]) {
      SkipSpaceBackSkipsSpace(s, hi - 1);
    }
  }

  /** `s.lstrip()`: `s` without its leading whitespace. */
  function LStrip(s: string): (r: string)
    ensures |r| <= |s|
    ensures r == [] || !IsSpace(r[0])
  {
    var k := SkipSpace(s, 0);
    SliceAt(s, k, |s|);
    Slice(s, k, |s|)
  }

  /** `s.strip()`: `s` without its leading and trailing whitespace. */
  function Strip(s: string): (r: string)
    ensures |r| <= |s|
    ensures IsStripped(r)
  {
    var b, e := SkipSpace(s, 0), SkipSpaceBack(s, |s|);
    if b < e then
      SliceAt(s, b, e);
      Slice(s, b, e)
    else []
  }

  /** What `Strip` cuts off on either side is whitespace. */
  lemma StripBounds(s: string) returns (b: nat, e: nat)
    ensures b <= e <= |s| && Strip(s) == s[b..e]
    ensures AllSpace(s[..b]) && AllSpace(s[e..])
  {
    var b0, e0 := SkipSpace(s, 0), SkipSpaceBack(s, |s|);
    SkipSpaceSkipsSpace(s, 0);
    SkipSpaceBackSkipsSpace(s, |s|);
    if b0 < e0 {
      b, e := b0, e0;
      SliceIsSlice(s, b, e);
    } else {
      b, e := 0, 0;
      assert AllSpace(s);
      assert s[0..0] == [] && s[0..] == s;
    }
  }

  /** What `LStrip` cuts off is whitespace, and it keeps the rest verbatim. */
  lemma LStripBounds(s: string) returns (k: nat)
    ensures k <= |s| && LStrip(s) == s[k..]
    ensures AllSpace(s[..k])
  {
    k := SkipSpace(s, 0);
    SkipSpaceSkipsSpace(s, 0);
    SliceIsSlice(s, k, |s|);
    assert s[k..|s|] == s[k..];
  }

  /** Stripping a stripped string changes nothing. */
  lemma StripStripped(s: string)
    requires IsStripped(s)
    ensures Strip(s) == s
  {
    if s != [] {
      assert SkipSpace(s, 0) == 0;
      assert SkipSpaceBack(s, |s|) == |s|;
      SliceIsSlice(s, 0, |s|);
    }
  }

  /** Left-stripping a string that does not start with whitespace changes nothing. */
  lemma LStripUnchanged(s: string)
    requires s == [] || !IsSpace(s[0])
    ensures LStrip(s) == s
  {
    assert SkipSpace(s, 0) == 0;
    SliceIsSlice(s, 0, |s|);
  }

  /** A character stays where it is in the stripped text if it is not whitespace
      and only whitespace follows it. */
  lemma StripEndsWith(p: string, c: char, w: string)
    requires !IsSpace(c) && AllSpace(w)
    ensures Strip(p + [c] + w) != []
    ensures Strip(p + [c] + w)[|Strip(p + [c] + w)| - 1] == c
  {
    var s := p + [c] + w;
    var b, e := SkipSpace(s, 0), SkipSpaceBack(s, |s|);
    SkipSpaceSkipsSpace(s, 0);
    SkipSpaceBackSkipsSpace(s, |s|);
    assert s[|p|] == c;
    assert b <= |p| < e;
    assert e - 1 == |p|;
    SliceAt(s, b, e);
  }

  /** When `s[i]` is not whitespace and only whitespace follows it, the
      stripped text is a stretch of `s` ending at `i`, and only whitespace
      comes before it. */
  lemma StripTail(s: string, i: nat) returns (b: nat)
    requires i < |s| && !IsSpace(s[i])
    requires forall j :: i < j < |s| ==> IsSpace(s[j])
    ensures b <= i && |Strip(s)| == i + 1 - b
    ensures forall j :: 0 <= j < b ==> IsSpace(s[j])
    ensures forall j :: 0 <= j < |Strip(s)| ==> Strip(s)[j] == s[b + j]
  {
    var e := SkipSpaceBack(s, |s|);
    b := SkipSpace(s, 0);
    SkipSpaceSkipsSpace(s, 0);
    SkipSpaceBackSkipsSpace(s, |s|);
    assert b <= i < e;
    assert e == i + 1;
    SliceAt(s, b, e);
  }

  lemma ConcatAssociative(a: string, b: string, c: string)
    ensures (a + b) + c == a + (b + c)
  {
  }

  // ----- the text of a string -----

  /** The non-whitespace characters of `s`, in order. */
  function NonSpace(s: string): string
    decreases |s|
  {
    if s == [] then []
    else NonSpace(s[..|s| - 1]) + (if IsSpace(s[|s| - 1]) then [] else [s[|s| - 1]])
  }

  lemma {:induction false} NonSpaceAppend(a: string, b: string)
    ensures NonSpace(a + b) == NonSpace(a) + NonSpace(b)
    decreases |b|
  {
    if b == [] {
      assert a + b == a;
    } else {
      var front, x := b[..|b| - 1], b[|b| - 1];
      assert b == front + [x];
      assert a + b == (a + front) + [x];
      NonSpaceAppend(a, front);
      NonSpaceSnoc(a + front, x);
      NonSpaceSnoc(front, x);
    }
  }

  lemma NonSpaceSnoc(s: string, x: char)
    ensures NonSpace(s + [x]) == NonSpace(s) + (if IsSpace(x) then [] else [x])
  {
    assert (s + [x])[..|s|] == s;
  }

  lemma {:induction false} NonSpaceAllSpace(s: string)
    requires AllSpace(s)
    ensures NonSpace(s) == []
    decreases |s|
  {
    if s != [] {
      NonSpaceAllSpace(s[..|s| - 1]);
    }
  }

  /** Stripping only ever removes whitespace. */
  lemma StripKeepsText(s: string)
    ensures NonSpace(Strip(s)) == NonSpace(s)
  {
    var b, e := StripBounds(s);
    var pre, r, post := s[..b], s[b..e], s[e..];
    assert s == pre + r + post;
    NonSpaceAppend(pre + r, post);
    NonSpaceAppend(pre, r);
    NonSpaceAllSpace(pre);
    NonSpaceAllSpace(post);
  }

  /** Left-stripping only ever removes whitespace. */
  lemma LStripKeepsText(s: string)
    ensures NonSpace(LStrip(s)) == NonSpace(s)
  {
    var k := SkipSpace(s, 0);
    var pre := s[..k];
    SkipSpaceSkipsSpace(s, 0);
    SliceIsSlice(s, k, |s|);
    assert LStrip(s) == s[k..];
    assert s == pre + s[k..];
    assert AllSpace(pre);
    NonSpaceAppend(pre, s[k..]);
    NonSpaceAllSpace(pre);
  }

  // ----- substring search -----

  /** `pat` occurs in `s` starting at index `i`. */
  predicate OccursAt(s: string, pat: string, i: int) {
    0 <= i && i + |pat| <= |s| && forall j :: 0 <= j < |pat| ==> s[i + j] == pat[j]
  }

  /** The leftmost occurrence of `pat` at or after `from`. */
  function Find(s: string, pat: string, from: nat): (r: Option<nat>)
    ensures r.Some? ==> from <= r.value && r.value + |pat| <= |s|
    decreases |s| - from
  {
    if from + |pat| > |s| then None
    else if OccursAt(s, pat, from) then Some(from)
    else Find(s, pat, from + 1)
  }

  /** `Find` returns an occurrence, and there is none between `from` and it
      (none at all when it returns `None`). */
  lemma {:induction false} FindLeftmost(s: string, pat: string, from: nat)
    ensures Find(s, pat, from).Some? ==> OccursAt(s, pat, Find(s, pat, from).value)
    ensures forall i :: from <= i && (Find(s, pat, from).None? || i < Find(s, pat, from).value) ==>
      !OccursAt(s, pat, i)
    decreases |s| - from
  {
    if from + |pat| <= |s| && !OccursAt(s, pat, from) {
      FindLeftmost(s, pat, from + 1);
    }
  }

  /** `pat in s` for strings. */
  function Contains(s: string, pat: string): bool {
    Find(s, pat, 0).Some?
  }

  /** `Contains` holds exactly when `pat` occurs somewhere in `s`. */
  lemma ContainsOccurs(s: string, pat: string)
    ensures Contains(s, pat) <==> exists i :: OccursAt(s, pat, i)
  {
    FindLeftmost(s, pat, 0);
  }

  /** A text with `pat` in the middle contains `pat`. */
  lemma ContainsMiddle(a: string, pat: string, b: string)
    ensures Contains(a + pat + b, pat)
  {
    var s := a + pat + b;
    forall j | 0 <= j < |pat| ensures s[|a| + j] == pat[j] {
      assert s[|a| + j] == (a + pat)[|a| + j];
    }
    assert OccursAt(s, pat, |a|);
    ContainsOccurs(s, pat);
  }

  /** `s.split(pat)[0]` (also `s.split(pat, 1)[0]`): the text before the first
      occurrence of `pat`, or all of `s` when there is none. */
  function Before(s: string, pat: string): (r: string)
    ensures |r| <= |s|
  {
    match Find(s, pat, 0)
    case None => s
    case Some(k) => s[..k]
  }

  /** `Before` is the prefix that ends at the first occurrence. */
  lemma BeforeFirstOccurrence(s: string, pat: string)
    ensures Before(s, pat) <= s
    ensures Contains(s, pat) ==> OccursAt(s, pat, |Before(s, pat)|)
    ensures forall j :: 0 <= j < |Before(s, pat)| ==> !OccursAt(s, pat, j)
    ensures !Contains(s, pat) ==> Before(s, pat) == s
  {
    FindLeftmost(s, pat, 0);
  }

  /** `s.split(pat, 1)[-1]`: the text after the first occurrence of `pat`, or
      all of `s` when there is none. */
  function AfterFirst(s: string, pat: string): (r: string)
    ensures |r| <= |s|
  {
    match Find(s, pat, 0)
    case None => s
    case Some(k) => Slice(s, k + |pat|, |s|)
  }

  /** The text before the first occurrence, the separator and the text after
      it make up the whole string. */
  lemma AfterFirstRest(s: string, pat: string)
    ensures Contains(s, pat) ==> s == Before(s, pat) + pat + AfterFirst(s, pat)
    ensures !Contains(s, pat) ==> AfterFirst(s, pat) == s
  {
    FindLeftmost(s, pat, 0);
    if Contains(s, pat) {
      var k := Find(s, pat, 0).value;
      var after := AfterFirst(s, pat);
      SliceAt(s, k + |pat|, |s|);
      var t := s[..k] + pat + after;
      assert |t| == |s|;
      forall i | 0 <= i < |s| ensures t[i] == s[i] {
        if i < k {
        } else if i < k + |pat| {
          assert t[i] == pat[i - k];
        } else {
          assert t[i] == after[i - k - |pat|];
        }
      }
    }
  }

  /** A single-character separator occurs exactly when the character does. */
  lemma ContainsChar(s: string, c: char)
    ensures Contains(s, [c]) <==> c in s
  {
    ContainsOccurs(s, [c]);
    if c in s {
      var i :| 0 <= i < |s| && s[i] == c;
      assert OccursAt(s, [c], i);
    }
    if Contains(s, [c]) {
      var i :| OccursAt(s, [c], i);
      assert s[i + 0] == [c][0];
    }
  }

  /** A string lacking the first character of `pat` does not contain `pat`. */
  lemma LacksFirst(s: string, pat: string)
    requires pat != [] && pat[0] !in s
    ensures !Contains(s, pat)
  {
    ContainsOccurs(s, pat);
  }

  /** The text before a separator whose first character `a` does not contain is `a` itself. */
  lemma BeforeFirst(a: string, pat: string, b: string)
    requires pat != [] && pat[0] !in a
    ensures Before(a + pat + b, pat) == a
  {
    var s := a + pat + b;
    FindLeftmost(s, pat, 0);
    assert OccursAt(s, pat, |a|);
    assert forall i :: 0 <= i < |a| ==> s[i] == a[i] != pat[0];
    assert Find(s, pat, 0) == Some(|a|);
    assert s[..|a|] == a;
  }

  // ----- splitting and joining -----

  /** Number of occurrences of `c` in `s`. */
  function Count(s: string, c: char): nat
    decreases |s|
  {
    if s == [] then 0
    else Count(s[..|s| - 1], c) + (if s[|s| - 1] == c then 1 else 0)
  }

  /** `sep.join(parts)`. */
  function Join(parts: seq<string>, sep: string): string
    decreases |parts|
  {
    if |parts| == 0 then []
    else if |parts| == 1 then parts[0]
    else Join(parts[..|parts| - 1], sep) + sep + parts[|parts| - 1]
  }

  /** `s.split(c)` for a one-character separator: the maximal runs between
      occurrences of `c`, one more than there are occurrences. */
  function SplitOn(s: string, c: char): (r: seq<string>)
    ensures |r| == Count(s, c) + 1
    decreases |s|
  {
    if s == [] then [[]]
    else SnocField(SplitOn(s[..|s| - 1], c), s[|s| - 1], c)
  }

  /** One more character read by the splitter: a separator opens a new field,
      anything else extends the last one. */
  function SnocField(fields: seq<string>, x: char, c: char): (r: seq<string>)
    requires |fields| > 0
    ensures |r| == |fields| + (if x == c then 1 else 0)
  {
    if x == c then fields + [[]]
    else fields[..|fields| - 1] + [fields[|fields| - 1] + [x]]
  }

  /** The splitter's step leaves a finished first field alone. */
  lemma SnocFieldCons(a: string, tail: seq<string>, x: char, c: char)
    requires |tail| > 0
    ensures SnocField([a] + tail, x, c) == [a] + SnocField(tail, x, c)
  {
    if x != c {
      assert ([a] + tail)[..|tail|] == [a] + tail[..|tail| - 1];
    }
  }

  /** Joining the fields back with `c` restores the text. */
  lemma {:induction false} SplitOnJoin(s: string, c: char)
    ensures Join(SplitOn(s, c), [c]) == s
    decreases |s|
  {
    if s != [] {
      var front, x := s[..|s| - 1], s[|s| - 1];
      assert s == front + [x];
      SplitOnJoin(front, c);
      SplitOnSnoc(front, x, c);
      var init := SplitOn(front, c);
      var m := |init|;
      if x == c {
        JoinSnoc(init, [], [c]);
      } else if m == 1 {
        assert SplitOn(s, c) == [init[0] + [x]];
      } else {
        var head, last := init[..m - 1], init[m - 1];
        assert init == head + [last];
        JoinSnoc(head, last, [c]);
        JoinSnoc(head, last + [x], [c]);
      }
    }
  }

  /** No field holds the separator. */
  lemma {:induction false} SplitOnFieldsLackSep(s: string, c: char)
    ensures forall k :: 0 <= k < |SplitOn(s, c)| ==> c !in SplitOn(s, c)[k]
    decreases |s|
  {
    if s != [] {
      var front, x := s[..|s| - 1], s[|s| - 1];
      assert s == front + [x];
      SplitOnFieldsLackSep(front, c);
      SplitOnSnoc(front, x, c);
      var init, r := SplitOn(front, c), SplitOn(s, c);
      forall k | 0 <= k < |r| ensures c !in r[k] {
        if k < |init| - 1 {
          assert r[k] == init[k];
        }
      }
    }
  }

  /** Text with exactly one separator is its two fields around it. */
  lemma SplitOnTwo(s: string, c: char)
    requires |SplitOn(s, c)| == 2
    ensures s == SplitOn(s, c)[0] + [c] + SplitOn(s, c)[1]
  {
    var f := SplitOn(s, c);
    SplitOnJoin(s, c);
    assert f == [f[0]] + [f[1]];
    JoinSnoc([f[0]], f[1], [c]);
  }

  /** Text with exactly two separators is its three fields around them. */
  lemma SplitOnThree(s: string, c: char)
    requires |SplitOn(s, c)| == 3
    ensures s == SplitOn(s, c)[0] + [c] + SplitOn(s, c)[1] + [c] + SplitOn(s, c)[2]
  {
    var f := SplitOn(s, c);
    SplitOnJoin(s, c);
    assert f == [f[0]] + [f[1]] + [f[2]];
    JoinSnoc([f[0]], f[1], [c]);
    JoinSnoc([f[0]] + [f[1]], f[2], [c]);
  }

  /** Joining one more part puts the separator before it. */
  lemma JoinSnoc(parts: seq<string>, x: string, sep: string)
    requires |parts| > 0
    ensures Join(parts + [x], sep) == Join(parts, sep) + sep + x
  {
    assert (parts + [x])[..|parts|] == parts;
  }

  /** Text without the separator is one field. */
  lemma {:induction false} SplitOnWhole(a: string, c: char)
    requires c !in a
    ensures SplitOn(a, c) == [a]
    decreases |a|
  {
    if a != [] {
      SplitOnWhole(a[..|a| - 1], c);
      assert a[..|a| - 1] + [a[|a| - 1]] == a;
    }
  }

  /** Splitting text whose first field has no separator yields that field first. */
  lemma {:induction false} SplitOnField(a: string, c: char, b: string)
    requires c !in a
    ensures SplitOn(a + [c] + b, c) == [a] + SplitOn(b, c)
    decreases |b|
  {
    if b == [] {
      SplitOnWhole(a, c);
      SplitOnSnoc(a, c, c);
      assert a + [c] + b == a + [c];
    } else {
      var front, x := b[..|b| - 1], b[|b| - 1];
      var head := a + [c] + front;
      assert a + [c] + b == head + [x];
      SplitOnField(a, c, front);
      SplitOnSnoc(head, x, c);
      SplitOnSnoc(front, x, c);
      SnocFieldCons(a, SplitOn(front, c), x, c);
    }
  }

  /** Appending one character is one step of the splitter. */
  lemma SplitOnSnoc(s: string, x: char, c: char)
    ensures SplitOn(s + [x], c) == SnocField(SplitOn(s, c), x, c)
  {
    assert (s + [x])[..|s|] == s;
  }

  /** `s1 + s2 + ...`: all parts one after another. */
  function Concat(parts: seq<string>): string
    decreases |parts|
  {
    if |parts| == 0 then [] else Concat(parts[..|parts| - 1]) + parts[|parts| - 1]
  }

  lemma {:induction false} ConcatAppend(a: seq<string>, b: seq<string>)
    ensures Concat(a + b) == Concat(a) + Concat(b)
    decreases |b|
  {
    if |b| == 0 {
      assert a + b == a;
    } else {
      var front, last := b[..|b| - 1], b[|b| - 1];
      assert b == front + [last];
      assert a + b == (a + front) + [last];
      ConcatAppend(a, front);
      ConcatSnoc(a + front, last);
      ConcatSnoc(front, last);
    }
  }

  lemma ConcatSnoc(parts: seq<string>, x: string)
    ensures Concat(parts + [x]) == Concat(parts) + x
  {
    assert (parts + [x])[..|parts|] == parts;
  }

  /** Joining with a whitespace separator adds no text to the parts. */
  lemma {:induction false} JoinKeepsText(parts: seq<string>, sep: string)
    requires AllSpace(sep)
    ensures NonSpace(Join(parts, sep)) == NonSpace(Concat(parts))
    decreases |parts|
  {
    if |parts| == 1 {
      assert parts[..0] == [];
      assert Concat(parts) == [] + parts[0] == parts[0];
    } else if |parts| > 1 {
      var front, last := parts[..|parts| - 1], parts[|parts| - 1];
      JoinKeepsText(front, sep);
      NonSpaceAppend(Join(front, sep) + sep, last);
      NonSpaceAppend(Join(front, sep), sep);
      NonSpaceAllSpace(sep);
      NonSpaceAppend(Concat(front), last);
    }
  }

  // ----- letter case -----

  /** ASCII `str.lower()` on one character. */
  function LowerChar(c: char): (r: char)
    ensures 'A' <= c <= 'Z' ==> 'a' <= r <= 'z' && r as int - c as int == 32
    ensures !('A' <= c <= 'Z') ==> r == c
  {
    if 'A' <= c <= 'Z' then (c as int + 32) as char else c
  }

  /** `s.lower()` restricted to ASCII letters: a per-character map. */
  function Lower(s: string): (r: string)
    ensures |r| == |s|
    decreases |s|
  {
    if s == [] then [] else Lower(s[..|s| - 1]) + [LowerChar(s[|s| - 1])]
  }

  /** `Lower` maps each character on its own, in place. */
  lemma {:induction false} LowerAt(s: string)
    ensures forall i :: 0 <= i < |s| ==> Lower(s)[i] == LowerChar(s[i])
    decreases |s|
  {
    if s != [] {
      LowerAt(s[..|s| - 1]);
    }
  }

  lemma LowerIdempotent(s: string)
    ensures Lower(Lower(s)) == Lower(s)
  {
    LowerAt(s);
    LowerAt(Lower(s));
  }
}

=== FILE: title_filter.dfy ===
/**
  filter_vid_infos.py: drop the lines of a video list, `NNN. title | url`,
  whose title marks a teaser or a re-upload. A line is kept verbatim unless it
  lacks a `|` or its lowercased title contains one of the keywords.
*/
module TitleFilter {
  import opened Wrappers
  import opened Strings
  import opened Sequences

  /** `KEYWORDS` */
  const Keywords: seq<string> := ["(teaser)", "(re-up)", "(reup)"]

  /** Some key occurs in `s`. */
  function AnyIn(keys: seq<string>, s: string): (r: bool)
    ensures r <==> exists k :: 0 <= k < |keys| && Contains(s, keys[k])
  {
    if |keys| == 0 then false
    else
      var rest := AnyIn(keys[1..], s);
      assert forall k :: 1 <= k < |keys| ==> keys[k] == keys[1..][k - 1];
      Contains(s, keys[0]) || rest
  }

  /** `should_filter(title)`; `None` stands for Python's `None`. */
  function ShouldFilter(title: Option<string>): (r: bool)
    ensures title.None? || title.value == [] ==> !r
    ensures title.Some? && title.value != [] ==>
      (r <==> exists k :: 0 <= k < |Keywords| && Contains(Lower(title.value), Keywords[k]))
  {
    match title
    case None => false
    case Some(t) => t != [] && AnyIn(Keywords, Lower(t))
  }

  /** The title of a list line: the text before the first `|`, without the
      leading number up to the first `.`, stripped. None when there is no `|`. */
  function ExtractTitle(line: string): (r: Option<string>)
    ensures r.None? <==> '|' !in line
    ensures r.Some? ==> IsStripped(r.value)
  {
    ContainsChar(line, '|');
    if Contains(line, "|") then Some(Strip(AfterFirst(Before(line, "|"), "."))) else None
  }

  /** The loop body's verdict on one line. */
  predicate Keep(line: string) {
    ExtractTitle(line).Some? && !ShouldFilter(ExtractTitle(line))
  }

  /** The lines written to the filtered file, in order. */
  function FilterVidInfos(lines: seq<string>): seq<string> {
    Filter(Keep, lines)
  }

  // ----- the verdict -----

  /** A line without `|` is never kept. */
  lemma NoPipeDropped(line: string)
    requires '|' !in line
    ensures !Keep(line)
  {
  }

  lemma {:induction false} LowerAppend(a: string, b: string)
    ensures Lower(a + b) == Lower(a) + Lower(b)
  {
    LowerAt(a + b);
    LowerAt(a);
    LowerAt(b);
    var l, r := Lower(a + b), Lower(a) + Lower(b);
    assert |l| == |r|;
    forall i | 0 <= i < |l| ensures l[i] == r[i] {
      if i < |a| {
        assert (a + b)[i] == a[i];
      } else {
        assert (a + b)[i] == b[i - |a|];
      }
    }
  }

  /** Lowercasing leaves a string without capital letters as it is. */
  lemma LowerNoCapitals(s: string)
    requires forall i :: 0 <= i < |s| ==> !('A' <= s[i] <= 'Z')
    ensures Lower(s) == s
  {
    LowerAt(s);
  }

  /** The keywords are already lowercase. */
  lemma KeywordsLower(k: nat)
    requires k < |Keywords|
    ensures Lower(Keywords[k]) == Keywords[k]
  {
    LowerNoCapitals(Keywords[k]);
  }

  /** Lowercasing a text around a part that is already lowercase keeps that
      part in place. */
  lemma LowerAround(pre: string, part: string, post: string)
    requires Lower(part) == part
    ensures Lower(pre + part + post) == Lower(pre) + part + Lower(post)
  {
    LowerAppend(pre + part, post);
    LowerAppend(pre, part);
  }

  /** A title with a keyword in it is filtered, whatever the letter case of
      the text around the keyword. */
  lemma KeywordFiltered(pre: string, k: nat, post: string)
    requires k < |Keywords|
    ensures ShouldFilter(Some(pre + Keywords[k] + post))
  {
    var keyword := Keywords[k];
    var title := pre + keyword + post;
    KeywordsLower(k);
    LowerAround(pre, keyword, post);
    ContainsMiddle(Lower(pre), keyword, Lower(post));
    assert Contains(Lower(title), Keywords[k]);
    assert title != [] by {
      assert |title| >= |keyword| > 0;
    }
  }

  /** A title and its lowercase get the same verdict. */
  lemma CaseInsensitive(title: string)
    ensures ShouldFilter(Some(title)) == ShouldFilter(Some(Lower(title)))
  {
    LowerIdempotent(title);
  }

  /** Where the title comes from: in `idx. title | url` with no `.` in `idx`
      and no `|` before the separator, the title is `title`, stripped. */
  lemma ExtractTitleOf(idx: string, title: string, url: string)
    requires '.' !in idx && '|' !in idx + "." + title
    ensures ExtractTitle(idx + "." + title + "|" + url) == Some(Strip(title))
  {
    var head := idx + "." + title;
    var line := head + "|" + url;
    assert line[|head|] == '|';
    BeforeFirst(head, "|", url);
    BeforeFirst(idx, ".", title);
    ContainsChar(line, '|');
    ContainsChar(head, '.');
    assert head[|idx|] == '.';
    AfterFirstRest(head, ".");
    var after := AfterFirst(head, ".");
    assert head == idx + "." + after;
    assert after == head[|idx| + 1..] == title;
  }

  /** Without a `.` before the `|`, the whole segment before it is the title. */
  lemma ExtractTitleUnnumbered(head: string, url: string)
    requires '.' !in head && '|' !in head
    ensures ExtractTitle(head + "|" + url) == Some(Strip(head))
  {
    var line := head + "|" + url;
    assert line[|head|] == '|';
    BeforeFirst(head, "|", url);
    ContainsChar(line, '|');
    ContainsChar(head, '.');
    AfterFirstRest(head, ".");
  }

  // ----- the selection loop -----

  /** Filtering distributes over concatenation: each line is judged on its own. */
  lemma FilterVidInfosAppend(p: seq<string>, q: seq<string>)
    ensures FilterVidInfos(p + q) == FilterVidInfos(p) + FilterVidInfos(q)
  {
    FilterAppend(Keep, p, q);
  }

  /** The kept lines are input lines, verbatim and in their original order. */
  lemma KeptSubsequence(lines: seq<string>)
    ensures IsSubsequence(FilterVidInfos(lines), lines)
    ensures |FilterVidInfos(lines)| <= |lines|
  {
    FilterSubsequence(Keep, lines);
    SubsequenceLength(FilterVidInfos(lines), lines);
  }

  /** A line is in the output exactly when it is an input line that is kept. */
  lemma KeptMembers(lines: seq<string>, x: string)
    ensures x in FilterVidInfos(lines) <==> x in lines && Keep(x)
  {
    FilterMembers(Keep, lines, x);
  }

  /** Filtering the filtered list changes nothing. */
  lemma FilterVidInfosIdempotent(lines: seq<string>)
    ensures FilterVidInfos(FilterVidInfos(lines)) == FilterVidInfos(lines)
  {
    FilterIdempotent(Keep, lines);
  }
}

=== FILE: vtt_time.dfy ===
/**
  `parse_vtt_time` in dl_cc.py: a cue time `H:M:S.mmm` becomes a
  `timedelta`, modelled here as a whole number of milliseconds. Any exception
  (wrong number of fields, a field `int` rejects, a `timedelta` overflow) is
  caught by the caller, so failure is `None`.
*/
module VttTime {
  import opened Wrappers
  import opened Strings

  /** `timedelta` rejects a value of 1000000000 days (of 86400000 ms) or more with OverflowError. */
  const MaxMs: nat := 86_400_000_000_000_000

  predicate IsDigit(c: char) {
    '0' <= c <= '9'
  }

  predicate AllDigits(s: string) {
    forall i :: 0 <= i < |s| ==> IsDigit(s[i])
  }

  /** One or more decimal digits. */
  predicate IsDigits(s: string) {
    |s| > 0 && AllDigits(s)
  }

  /** `int()` refuses a decimal string of more digits than this, leading zeros
      included (the default of `sys.set_int_max_str_digits`). */
  const MaxIntDigits: nat := 4300

  /** A field `int()` accepts: one to `MaxIntDigits` decimal digits. */
  predicate IsIntField(s: string) {
    IsDigits(s) && |s| <= MaxIntDigits
  }

  /** The decimal value of a digit string (leading zeros allowed). */
  function DigitsValue(s: string): nat
    requires AllDigits(s)
  {
    if s == [] then 0 else 10 * DigitsValue(s[..|s| - 1]) + (s[|s| - 1] as int - '0' as int)
  }

  /** `int(s)`, or None where it raises ValueError. */
  function ParseInt(s: string): (r: Option<nat>)
    ensures r.Some? <==> IsDigits(s) && |s| <= 4300
  {
    if IsIntField(s) then Some(DigitsValue(s)) else None
  }

  /** The duration of h hours, m minutes, s seconds and ms milliseconds, in
      milliseconds (an hour is 3600000 ms, a minute 60000, a second 1000). */
  function TotalMs(h: nat, m: nat, s: nat, ms: nat): nat {
    h * 3_600_000 + m * 60_000 + s * 1000 + ms
  }

  /** `parse_vtt_time(t)` in milliseconds, or None where it raises. */
  function ParseVttTime(t: string): (r: Option<nat>)
    ensures r.Some? ==> r.value < MaxMs
    ensures Count(t, ':') != 2 ==> r.None?
  {
    var fields := SplitOn(t, ':');
    if |fields| != 3 then None
    else
      var secs := SplitOn(fields[2], '.');
      if |secs| != 2 then None
      else
        var h, m, s, ms := ParseInt(fields[0]), ParseInt(fields[1]), ParseInt(secs[0]), ParseInt(secs[1]);
        if h.None? || m.None? || s.None? || ms.None? then None
        else
          var total := TotalMs(h.value, m.value, s.value, ms.value);
          if total < MaxMs then Some(total) else None
  }

  /** The time four digit fields denote, unless it is out of `timedelta`'s range. */
  function ClockValue(h: string, m: string, s: string, ms: string): Option<nat>
    requires IsDigits(h) && IsDigits(m) && IsDigits(s) && IsDigits(ms)
  {
    var total := TotalMs(DigitsValue(h), DigitsValue(m), DigitsValue(s), DigitsValue(ms));
    if total < MaxMs then Some(total) else None
  }

  /** Four digit fields `h:m:s.ms` denote h hours, m minutes, s seconds and ms
      milliseconds when each has at most `MaxIntDigits` digits; a wider field
      makes the parse fail. */
  lemma ParseFields(h: string, m: string, s: string, ms: string)
    requires IsDigits(h) && IsDigits(m) && IsDigits(s) && IsDigits(ms)
    ensures ParseVttTime(h + ":" + m + ":" + s + "." + ms) ==
      if |h| <= 4300 && |m| <= 4300 && |s| <= 4300 && |ms| <= 4300 then ClockValue(h, m, s, ms) else None
  {
    var rest := s + "." + ms;
    var t := h + ":" + m + ":" + s + "." + ms;
    assert t == h + ":" + m + ":" + rest;
    NoColonInSeconds(s, ms);
    ColonFields(h, m, rest);
    assert SplitOn(t, ':') == [h, m, rest];
    SplitOnField(s, '.', ms);
    assert '.' !in ms;
    SplitOnWhole(ms, '.');
    assert SplitOn(rest, '.') == [s, ms];
    ParseOfFields(t, h, m, rest, s, ms);
  }

  lemma ParseOfFields(t: string, h: string, m: string, rest: string, s: string, ms: string)
    requires SplitOn(t, ':') == [h, m, rest] && SplitOn(rest, '.') == [s, ms]
    requires IsDigits(h) && IsDigits(m) && IsDigits(s) && IsDigits(ms)
    ensures ParseVttTime(t) ==
      if IsIntField(h) && IsIntField(m) && IsIntField(s) && IsIntField(ms) then ClockValue(h, m, s, ms) else None
  {
    if IsIntField(h) && IsIntField(m) && IsIntField(s) && IsIntField(ms) {
      assert ParseInt(h) == Some(DigitsValue(h));
      assert ParseInt(m) == Some(DigitsValue(m));
      assert ParseInt(s) == Some(DigitsValue(s));
      assert ParseInt(ms) == Some(DigitsValue(ms));
    }
  }

  lemma NoColonInSeconds(s: string, ms: string)
    requires AllDigits(s) && AllDigits(ms)
    ensures ':' !in s + "." + ms
  {
    var rest := s + "." + ms;
    forall i | 0 <= i < |rest| ensures rest[i] != ':' {
      if i < |s| {
        assert rest[i] == s[i];
      } else if i > |s| {
        assert rest[i] == ms[i - |s| - 1];
      }
    }
  }

  lemma ColonFields(h: string, m: string, rest: string)
    requires AllDigits(h) && AllDigits(m) && ':' !in rest
    ensures SplitOn(h + ":" + m + ":" + rest, ':') == [h, m, rest]
  {
    assert ':' !in h && ':' !in m;
    assert h + ":" + m + ":" + rest == h + [':'] + (m + [':'] + rest);
    SplitOnField(h, ':', m + [':'] + rest);
    SplitOnField(m, ':', rest);
    SplitOnWhole(rest, ':');
  }

  /** Conversely, every accepted time is four digit fields `h:m:s.ms`. */
  lemma ParsedShape(t: string) returns (h: string, m: string, s: string, ms: string)
    requires ParseVttTime(t).Some?
    ensures IsIntField(h) && IsIntField(m) && IsIntField(s) && IsIntField(ms)
    ensures t == h + ":" + m + ":" + s + "." + ms
    ensures ParseVttTime(t) == ClockValue(h, m, s, ms)
  {
    var fields := SplitOn(t, ':');
    assert |fields| == 3;
    var secs := SplitOn(fields[2], '.');
    assert |secs| == 2;
    h, m, s, ms := fields[0], fields[1], secs[0], secs[1];
    SplitOnThree(t, ':');
    SplitOnTwo(fields[2], '.');
  }

  /** A run of `n` zero digits. */
  function Zeros(n: nat): (r: string)
    ensures |r| == n && AllDigits(r) && DigitsValue(r) == 0
  {
    if n == 0 then [] else
      var r := Zeros(n - 1) + ['0'];
      assert r[..n - 1] == Zeros(n - 1);
      r
  }

  /** Leading zeros do not change a digit string's value. */
  lemma {:induction false} LeadingZeros(n: nat, d: string)
    requires AllDigits(d)
    ensures AllDigits(Zeros(n) + d)
    ensures DigitsValue(Zeros(n) + d) == DigitsValue(d)
    decreases |d|
  {
    var z := Zeros(n);
    if d != [] {
      var d' := d[..|d| - 1];
      LeadingZeros(n, d');
      assert (z + d)[..|z + d| - 1] == z + d';
    } else {
      assert z + d == z;
    }
  }

  /** The decimal digits of `n`, without leading zeros. */
  function NatToDigits(n: nat): (r: string)
    ensures IsDigits(r) && DigitsValue(r) == n
  {
    if n < 10 then
      var r := [('0' as int + n) as char];
      assert r[..0] == [];
      r
    else
      var p := NatToDigits(n / 10);
      var r := p + [('0' as int + n % 10) as char];
      assert r[..|r| - 1] == p;
      r
  }

  /** Ten to the power `k`. */
  function Pow10(k: nat): (r: nat)
    ensures r > 0
  {
    if k == 0 then 1 else 10 * Pow10(k - 1)
  }

  /** A number below ten to the `k` has at most `k` digits (and always one). */
  lemma {:induction false} NatToDigitsLength(n: nat, k: nat)
    requires n < Pow10(k)
    ensures |NatToDigits(n)| <= if k == 0 then 1 else k
  {
    if n >= 10 {
      assert Pow10(1) == 10;
      assert k > 1;
      assert n / 10 < Pow10(k - 1);
      NatToDigitsLength(n / 10, k - 1);
    }
  }

  /** `n` in decimal, left-padded with zeros to at least `width` digits. */
  function PadDigits(n: nat, width: nat): (r: string)
    ensures IsDigits(r) && DigitsValue(r) == n && |r| >= width
    ensures |r| > width ==> r == NatToDigits(n)
  {
    var d := NatToDigits(n);
    if |d| >= width then d
    else
      LeadingZeros(width - |d|, d);
      Zeros(width - |d|) + d
  }

  /** Writes a time in milliseconds as `HH:MM:SS.mmm`, the cue time shape of the
      subtitle files the scripts read. */
  function FormatVttTime(t: nat): string {
    var secTotal := t / 1000;
    var minTotal := secTotal / 60;
    PadDigits(minTotal / 60, 2) + ":" + PadDigits(minTotal % 60, 2) + ":"
    + PadDigits(secTotal % 60, 2) + "." + PadDigits(t % 1000, 3)
  }

  /** Reading back a written time gives the same number of milliseconds. */
  lemma FormatRoundTrip(t: nat)
    requires t < MaxMs
    ensures ParseVttTime(FormatVttTime(t)) == Some(t)
  {
    var h, m, s, ms := t / 1000 / 60 / 60, t / 1000 / 60 % 60, t / 1000 % 60, t % 1000;
    ClockFields(t);
    NatToDigitsLength(h, 11);
    NatToDigitsLength(m, 3);
    NatToDigitsLength(s, 3);
    NatToDigitsLength(ms, 3);
    ParseFields(PadDigits(h, 2), PadDigits(m, 2), PadDigits(s, 2), PadDigits(ms, 3));
  }

  /** The fields `FormatVttTime` writes add up to the time, and each is short. */
  lemma ClockFields(t: nat)
    requires t < MaxMs
    ensures t == TotalMs(t / 1000 / 60 / 60, t / 1000 / 60 % 60, t / 1000 % 60, t % 1000)
    ensures t / 1000 / 60 / 60 < Pow10(11)
    ensures t / 1000 / 60 % 60 < Pow10(3) && t / 1000 % 60 < Pow10(3) && t % 1000 < Pow10(3)
  {
    var secTotal := t / 1000;
    var minTotal := secTotal / 60;
    var h, m, s, ms := minTotal / 60, minTotal % 60, secTotal % 60, t % 1000;
    assert t == secTotal * 1000 + ms;
    assert secTotal == minTotal * 60 + s;
    assert minTotal == h * 60 + m;
    assert Pow10(3) == 1000;
    assert Pow10(11) == 100_000_000_000;
  }
}

=== FILE: wrappers.dfy ===
/** The optional value used wherever the scripts use `None`. */
module Wrappers {

  datatype Option<+T> = None | Some(value: T)

  /** The last element of a sequence, or None when it is empty. */
  function LastOf<T>(s: seq<T>): (r: Option<T>)
    ensures r.None? <==> |s| == 0
    ensures r.Some? ==> r.value == s[|s| - 1]
  {
    if |s| == 0 then None else Some(s[|s| - 1])
  }
}
